=== FILE: README.md ===
# Memory-match game session in Dafny

This project models the game logic of `src/pages/Game.tsx`, a memory-match game.
The game deals a deck of paired symbols face-up for a preview. It then turns them
face-down and lets the player turn up two cards at a time against a countdown. A
matching pair stays up and scores `100 * level`; a mismatching pair turns back
down. The game runs three rounds on each of three levels. At the end the
player's score goes into a five-entry leaderboard.

The React component is modelled as a state machine over an explicit `Session`
record. Each React state variable is a field. Each timer callback and each
button is its own transition function:

- `common.dfy`: `Option`, `Result` and the one configuration error, `InvalidLevel`.
- `levels.dfy`: the level table `LEVEL_CONFIG` and the symbol pool `EMOJIS`.
- `cards.dfy`: the card record and the id-keyed `map` updates the component applies to the table.
- `deck.dfy`: `initializeCards`. The random order is a caller-supplied list of
  transpositions. `ShuffleCanReach` proves that such a list can produce every arrangement.
- `game.dfy`: the session and its transitions.
  - `Mount`: first render and the restart parameters.
  - `PreviewEnd`: the 3-second preview timeout.
  - `Tick`: one firing of the 1-second interval.
  - `Flip`: `handleCardClick`.
  - `Resolve`: the 500 ms match and 1000 ms mismatch timeouts, followed by the round-complete effect.
  - `NextRound`: `handleNextRound`.
  - `RetryAsWritten`: `handleTryAgain` as the code does it. `Retry` is the
    restart of the round that it evidently intends (see "Findings").
  - `Step` and `Run`: one event, and a sequence of events.
- `invariant.dfy`: the invariant `Inv` that every reachable session keeps, and its preservation by every event.
- `properties.dfy`: properties of events and runs. The score and the matched
  cards never go back, the round-complete condition holds both ways, and the
  two-click match and mismatch scenarios are spelled out. It also proves the
  round progression.
- `leaderboard.dfy`: the leaderboard update of `handleGameComplete`, as a
  stable sort by descending score followed by taking the first five entries.
- `timefmt.dfy`: `formatTime`. It is checked against `ParseTime`, an independent reader of the `MM:SS` shape.

Three behaviours of the code are kept as written:

- The click handler decides whether a pair is up from the table as it was before the click (`PairCandidates`).
- The resolution adds `100 * level` using the level from the time of the click (`Pending.level`).
- `handleNextRound` deals a new deck even after the final round. Level and round
  do not change there, so the preview effect does not re-run. The deck stays
  face-up and play does not restart.

## What the code does at its edges

- The code never checks whether the pool has enough symbols for a level.
  `Levels.LevelTableConsistent` proves that every level fits in the 24-symbol pool.
- The code has no guard for a level outside the table. On the first render,
  with or without `restart`, line 40 reads the initial clock as
  `LEVEL_CONFIG[currentLevel || 1]`. A `level` of 0, or one that does not
  parse, falls back to level 1 there. Any other value outside 1..3, such as
  `level=4`, reads `.time` of `undefined` and throws at line 40, before any
  state exists.
- With `restart=true`, a 0 or unparseable `level` passes line 40 and becomes
  the `level` state. The component then throws at line 65, and again at
  lines 70-71. The model returns `Err(InvalidLevel(level))` from
  `Levels.ConfigFor`, `Deck.InitializeCards` and `Game.Mount` for every level
  outside 1..3 instead.
- Without `restart`, the `level` parameter is used only at line 40.
  `Game.Mount(None, …)` ignores the parameter and always succeeds, so it does
  not model the line-40 crash.
- `handleCardClick` returns nothing. The model's `Flip` returns only the new
  session. A rejected click is one that returns the session unchanged
  (`GameInvariant.FlipRejectedIff`).
- Try Again is reachable from the footer's Restart button and from the
  time-up modal. Each modal is a full-screen overlay, so the footer cannot be
  clicked while one is open. The model lets Try Again be pressed in every
  state. That admits more runs than the page does, so every property proved
  for all runs also holds for the page's runs.
- The final Next Round opens the game-complete modal and also deals a new
  face-up deck, as described above.

## Model

| member | source | states |
|---|---|---|
| Levels.Config | src/pages/Game.tsx:16-20 | each level's grid holds exactly twice its pairs, the pair count is between 1 and the pool size, and the round time is positive |
| Levels.ConfigFor | src/pages/Game.tsx:16-20 | only levels 1, 2 and 3 have a configuration, and it is that level's entry of the table; any other level gives `InvalidLevel` carrying that level; a configured level has a positive pair count and time |
| Levels.LevelTableConsistent | src/pages/Game.tsx:16-26 | for each level, rows times cols is twice the pair count; the pair count is between 1 and the 24 symbols of the pool; the time is positive |
| Levels.EmojisDistinct | src/pages/Game.tsx:22-26 | no symbol occurs twice in the pool, so a level's symbols form distinct pairs |
| Levels.LevelsGrow | src/pages/Game.tsx:16-20 | a higher level deals strictly more pairs and gives strictly more time |
| Deck.Swap | src/pages/Game.tsx:74-75 | one transposition of the shuffle keeps the length and the multiset of entries |
| Deck.Shuffle | src/pages/Game.tsx:74 | the random reordering keeps the length; `Deck.ShufflePermutes` and `Deck.ShuffleCanReach` state that it yields exactly the rearrangements of its input |
| Deck.ShufflePermutes | src/pages/Game.tsx:74-75 | the shuffle only rearranges the doubled symbol list |
| Deck.ShuffleCanReach | src/pages/Game.tsx:74-75 | every rearrangement of the doubled list is produced by some list of transpositions, so modelling the random order this way loses no deal |
| Deck.LevelEmojis | src/pages/Game.tsx:70-72 | a level plays the first `pairs` symbols of the pool, all distinct |
| Deck.Deal | src/pages/Game.tsx:69-83 | a deck has `2 * pairs` cards; card i has id i; every card is face-up and unmatched; the symbols are a rearrangement of the level's symbols written twice |
| Deck.InitializeCards | src/pages/Game.tsx:69-89 | dealing fails exactly when the level is not configured, with `InvalidLevel`; otherwise it gives a face-up, unmatched deck of the level, numbered by position, holding the level's symbols twice each |
| Deck.DeckHoldsPairs | src/pages/Game.tsx:70-81 | every deck holds each of the level's first `pairs` symbols exactly twice and no other symbol |
| Deck.DealIsDeck | src/pages/Game.tsx:69-83 | a dealt deck, in whatever order, satisfies the deck shape the invariant relies on |
| Deck.DistinctMultiplicity | src/pages/Game.tsx:72-74 | in a list without repeats each entry occurs once, so the doubled list holds each symbol twice |
| Cards.FindById | src/pages/Game.tsx:136-137 | the lookup gives a card on the table with the clicked id, and gives nothing exactly when no card has that id |
| Cards.FindFirst | src/pages/Game.tsx:136 | the lookup gives the first card carrying the id |
| Cards.PairCandidates | src/pages/Game.tsx:154-155 | the collected cards come from the table before the click and are the clicked card or face-up unmatched |
| Cards.PairCandidatesCount | src/pages/Game.tsx:154-157 | on a deck numbered by position, when the clicked card is not already up, the click collects the face-up unmatched cards plus the clicked one |
| Cards.PairCandidatesShape | src/pages/Game.tsx:154-158 | the collected cards are the clicked one and the face-up unmatched ones, each taken from its own position, in increasing id order |
| Cards.HideAll | src/pages/Game.tsx:96 | the end of the preview turns every card face-down and changes neither symbols nor matched marks |
| Cards.CountFullMeansAll | src/pages/Game.tsx:191 | the matched count reaches the table size only when every card is matched |
| Cards.MatchIds | src/pages/Game.tsx:163-169 | matching by id keeps every card's id and symbol; `Cards.MatchIdsAt` shows it marks exactly the two cards at those positions |
| Cards.HideIds | src/pages/Game.tsx:176-182 | hiding by id keeps every card's id and symbol; `Cards.HideIdsAt` shows it turns down exactly the two cards at those positions |
| Cards.MatchPairCounts | src/pages/Game.tsx:163-169 | matching the two waiting cards adds two matched cards and leaves no card face-up and unmatched |
| Cards.HidePairCounts | src/pages/Game.tsx:176-182 | turning the two waiting cards down keeps the matched count and leaves none face-up and unmatched |
| Game.Redeal | src/pages/Game.tsx:69-89 | a new deal gives a fresh face-up deck of the level, stops play, closes the time-up and round-complete modals, zeroes the matched pairs, puts the level's time on the clock, and keeps score, level and round |
| Game.Mount | src/pages/Game.tsx:33-47 | without restart parameters the game starts at score 0, level 1, round 1; with them it resumes from the given score, level and round, and fails with `InvalidLevel` exactly when that level is not configured; the first deal is face-up and unmatched with its preview scheduled; play is stopped, nothing is pending, and the time-up and round-complete modals are closed |
| Game.NewGame | src/pages/Game.tsx:41-44 | a fresh game is level 1, round 1, score 0, with a level-1 deck and level-1 time |
| Game.RetryAsWritten | src/pages/Game.tsx:221-233 | Try Again as the code does it: play stops and nothing else changes, because navigating to the route already on screen keeps the page and its state |
| GameInvariant.RetryAsWrittenInv | src/pages/Game.tsx:221-233 | Try Again as written keeps the session invariant |
| GameProperties.TryAgainLeavesTimeUp | src/pages/Game.tsx:221-233 | pressed in the time-up modal, Try Again as written leaves the modal open, the clock at 0 and the table as it was, and no click, tick or preview starts play again |
| GameProperties.RestartThenLastMatchCompletesRound | src/pages/Game.tsx:162-195 | after Restart as written, a scheduled resolution that matches the round's last pair still fires and opens the round-complete modal |
| GameProperties.RestartFreezesPlay | src/pages/Game.tsx:221-233 | pressed during play, Restart as written stops play with time left and no preview scheduled, so clicks, ticks and the preview event change nothing |
| Game.Retry | src/pages/Game.tsx:33-47 | the intended Try Again, which loads the restart parameters the code writes: it keeps score, level and round and deals a fresh deck with the preview scheduled, play stopped, and the time-up and round-complete modals closed |
| GameProperties.RetryRestartsRound | src/pages/Game.tsx:33-47 | after the intended Try Again and its preview, play is on with the level's full time, the same score, level and round, no pair matched, every card face-down, and the first card clickable |
| Game.PreviewEnd | src/pages/Game.tsx:95-98 | the preview timeout turns every card face-down, keeps the matched marks and starts play; it changes no counter, clock, level, round, pending pair or modal |
| Game.Tick | src/pages/Game.tsx:110-119 | with play stopped nothing changes; above one second the clock goes down by one; at one second or less it becomes exactly 0, the time-up modal opens and play stops; the clock is never negative after a tick; cards, counters, level, round, pending pair, the two completion modals and the preview flag are kept |
| Game.Flip | src/pages/Game.tsx:131-151 | the click changes nothing before play starts, once the clock is out, for an unknown id, for a matched or face-up card, and while two unmatched cards are up; it never changes a symbol, a counter, the clock, the level or round, or a modal |
| Game.FlipAccepted | src/pages/Game.tsx:133-144 | the click guard: play on, time left, a card with the id, neither matched nor face-up, and fewer than two unmatched cards up; `GameInvariant.FlipRejectedIff` proves it is exactly when `Flip` acts |
| Cards.FlipById | src/pages/Game.tsx:147-151 | turning up by id keeps every card's id and symbol; `Cards.FlipByIdAt` shows it changes exactly the card at that position |
| GameInvariant.FlipRejectedIff | src/pages/Game.tsx:131-144 | on a reachable session the click changes nothing exactly when one of the guards rejects it |
| GameInvariant.FlipAcceptedEffect | src/pages/Game.tsx:146-158 | an accepted click turns up exactly the clicked card; the face-up unmatched count rises by one to at most two; the matched count stays; a resolution is scheduled exactly when two are up |
| GameProperties.SecondFlipPairsUp | src/pages/Game.tsx:154-158 | a click taken while one card waits face-up schedules the resolution of exactly that card and the clicked one |
| GameProperties.TwoClicksPairUp | src/pages/Game.tsx:131-158 | two clicks on two face-down cards, with none up before, schedule the resolution of exactly those two cards |
| Game.CheckRoundComplete | src/pages/Game.tsx:189-195 | the round-complete modal opens and play stops exactly when the matched pairs reach the level's pair count; the table, counters, clock, pending pair, the other modals and the preview are unchanged |
| Game.Resolve | src/pages/Game.tsx:157-195 | a matching pair adds one matched pair and `100 * level`, using the level from the click, and stops play and opens the round-complete modal exactly when that pair is the level's last; a mismatch keeps score, pairs and play state; the pending pair is cleared; the score and pair count never go down |
| GameInvariant.ResolveEffect | src/pages/Game.tsx:160-184 | the resolution marks both waiting cards matched, or turns both face-down, and leaves every other card as it was |
| GameProperties.ResolvePairAt | src/pages/Game.tsx:160-184 | the same, stated by the two cards' positions in either order |
| GameProperties.MatchingPairScenario | src/pages/Game.tsx:131-172 | turning up two cards with the same symbol and resolving leaves both matched and face-up, adds one pair and `100 * level` points, and changes no other card |
| GameProperties.MismatchScenario | src/pages/Game.tsx:131-184 | turning up two cards with different symbols and resolving restores the table, the score and the pair count from before the two clicks |
| Game.NextRound | src/pages/Game.tsx:197-208 | before round 3 the round advances; after round 3 below level 3 the level advances and the round resets to 1; after round 3 of level 3 the game-complete modal opens; a fresh deck is dealt in every case and the score is kept |
| GameProperties.NextRoundAdvances | src/pages/Game.tsx:197-205 | Next Round moves one round forward in the nine-round game until the ninth, where it opens the game-complete modal and stays put |
| Game.Step | src/pages/Game.tsx:95-233 | an event that deals no new deck keeps level, round and the game-complete modal; Next Round does nothing unless the round-complete modal is open, and otherwise closes it and zeroes the matched pairs; `GameInvariant.StepInv` proves every event keeps the invariant |
| Game.Run | src/pages/Game.tsx:95-233 | a run applies its events in order; `GameInvariant.RunInv`, `GameProperties.RunKeepsScore` and `GameProperties.RunKeepsMatched` state its properties |
| GameInvariant.NewGameInv | src/pages/Game.tsx:38-47 | a fresh game satisfies the session invariant |
| GameInvariant.MountInv | src/pages/Game.tsx:33-47 | a restart with a configured level, a round in 1..3 and a non-negative score satisfies the invariant |
| GameInvariant.RetryInv | src/pages/Game.tsx:33-47 | the intended Try Again keeps the invariant |
| GameInvariant.PreviewEndInv | src/pages/Game.tsx:95-98 | the preview end keeps the invariant |
| GameInvariant.TickInv | src/pages/Game.tsx:110-119 | a tick keeps the invariant |
| GameInvariant.FlipInv | src/pages/Game.tsx:131-186 | a click keeps the invariant: at most two unmatched cards up, and a scheduled pair is exactly the two up |
| GameInvariant.ResolveInv | src/pages/Game.tsx:157-195 | the resolution keeps the invariant, including the matched count equal to twice the matched pairs |
| GameInvariant.NextRoundInv | src/pages/Game.tsx:197-208 | Next Round from the round-complete modal keeps the invariant, with level and round in 1..3 |
| GameInvariant.StepInv | src/pages/Game.tsx:95-232 | every event keeps the invariant |
| GameInvariant.RunInv | src/pages/Game.tsx:95-232 | every sequence of events keeps the invariant |
| GameProperties.StepKeepsScore | src/pages/Game.tsx:171 | no event lowers the score, and only a resolution changes it |
| GameProperties.RunKeepsScore | src/pages/Game.tsx:171 | no sequence of events lowers the score |
| GameProperties.StepKeepsMatched | src/pages/Game.tsx:131-233 | on any event that deals no new deck, including Try Again as written, a matched card never changes and the matched-pair counter never goes down |
| GameProperties.RunKeepsMatched | src/pages/Game.tsx:131-184 | the same over any sequence of events that deals no new deck |
| GameProperties.RoundCompleteIff | src/pages/Game.tsx:189-195 | on a reachable session the round-complete modal is open exactly when the matched pairs equal the level's pair count, which is exactly when every card is matched, and then play is stopped |
| GameProperties.AtMostTwoFaceUp | src/pages/Game.tsx:142-144 | while play is on, at most two unmatched cards are face-up |
| GameProperties.NoFlipAfterTimeUp | src/pages/Game.tsx:113-116 | once the time-up modal is shown every click is ignored |
| Leaderboard.Top | src/pages/Game.tsx:215 | keeping the first five entries gives `min(n, 5)` entries in their original order |
| Leaderboard.InsertLastPermutes | src/pages/Game.tsx:213-214 | one insertion step adds exactly the new entry |
| Leaderboard.SortByScore | src/pages/Game.tsx:214 | the sort keeps the number of entries; `Leaderboard.SortSorts`, `Leaderboard.SortPermutes` and `Leaderboard.SortIsStable` state that it orders, rearranges and is stable |
| Leaderboard.SortSorts | src/pages/Game.tsx:214 | the sort orders the entries by score, highest first |
| Leaderboard.SortPermutes | src/pages/Game.tsx:214 | the sort only rearranges the entries |
| Leaderboard.SortIsStable | src/pages/Game.tsx:214 | for every score, the entries with that score keep their original order |
| Leaderboard.StableSortIsUnique | src/pages/Game.tsx:214 | two descending orders with the same entries of every score in the same order are equal, so any stable descending sort gives the same board |
| Leaderboard.SortSortedIsIdentity | src/pages/Game.tsx:214 | sorting a board that is already sorted changes nothing |
| Leaderboard.AppendScore | src/pages/Game.tsx:213-215 | the new board has `min(n + 1, 5)` entries, is sorted highest first, holds only old entries and the new one, and holds the new one whenever the old board had fewer than five; on a sorted board `Leaderboard.AppendToSortedBoard` fixes which entries are kept |
| Leaderboard.AppendToSortedBoard | src/pages/Game.tsx:213-215 | on a sorted board the new entry goes in behind every entry scoring at least as much, the old entries keep their order, and only the first five are kept |
| Leaderboard.FullBoardExample | src/pages/Game.tsx:213-215 | on a full board of 500, 400, 300, 200 and 100, a score of 350 goes in third and the 100 drops off |
| Leaderboard.PlayerName | src/pages/Game.tsx:211 | the entered name is never empty: it is the stored player name when one is present and non-empty, and "Anonymous" otherwise |
| Leaderboard.CompleteGame | src/pages/Game.tsx:210-216 | the new board is `AppendScore` of the stored board and an entry with the stored player name, or "Anonymous" when it is absent or empty, and the final score; it has `min(n + 1, 5)` entries, is sorted, holds only old entries and the new one, and holds the new one whenever the old board had room; the player marker is removed |
| TimeFormat.PadStart2 | src/pages/Game.tsx:53 | padding gives at least two characters, leaves longer strings alone, and fills only with '0' in front of the original |
| TimeFormat.ShowNat | src/pages/Game.tsx:53 | `String(n)` of a natural number is a non-empty string of digits, one digit exactly below 10, with no leading zero from 10 on; `TimeFormat.ShowNatValue` gives its value |
| TimeFormat.ShowNatValue | src/pages/Game.tsx:53 | the decimal form of a number reads back as that number |
| TimeFormat.FormatTime | src/pages/Game.tsx:50-54 | the rendered time has at least five characters, a ':' third from the end, and decimal digits everywhere else; `TimeFormat.FormatTimeFields` gives the field values and `TimeFormat.FormatTimeWidth` the exact width |
| TimeFormat.FormatTimeFields | src/pages/Game.tsx:50-54 | the rendered time is a minutes field of at least two digits, ':' and a seconds field of exactly two digits below 60, and minutes times 60 plus seconds is the input |
| TimeFormat.FormatTimeWidth | src/pages/Game.tsx:50-54 | the rendered time is as long as the decimal form of the minutes, or two when that is shorter, plus three, and a minutes field wider than two has no leading zero, so the text is pinned and not just its value |
| TimeFormat.ParseFormatRoundTrip | src/pages/Game.tsx:50-54 | reading a rendered time gives back the seconds it was rendered from |
| TimeFormat.FormatTimeInjective | src/pages/Game.tsx:50-54 | different numbers of seconds never render alike |
| TimeFormat.FormatTimeExample | src/pages/Game.tsx:50-54 | 65 seconds render as "01:05" |
| TimeFormat.FormatTimeLongExample | src/pages/Game.tsx:50-54 | 6000 seconds render as "100:00": the minutes field grows rather than wraps |

## Findings

| source | as written | input that shows it | evidently intended | confidence | as-written member | corrected member |
|---|---|---|---|---|---|---|
| src/pages/Game.tsx:221-233 | `handleTryAgain` stops play and navigates to `/game?restart=true&…`. The route `/game` (src/App.tsx:20) is the page already on screen and has no `key`, so the page keeps its state. The state initialisers (lines 38-47) do not run again, and the deal effect (lines 92-104) does not re-run because level and round are unchanged. | A session whose clock ran out (time-up modal open, `timeLeft` 0). After Try Again the modal is still open, the clock is still 0 and the table is unchanged. Pressed during play, the footer's Restart stops the game for good, unless a resolution already scheduled completes the round's last pair. | The round starts again with the same score, level and round, a fresh deck and a preview, as a load of the restart URL does. | high, not executed | Game.RetryAsWritten, GameProperties.TryAgainLeavesTimeUp, GameProperties.RestartFreezesPlay, GameProperties.RestartThenLastMatchCompletesRound | Game.Retry, GameProperties.RetryRestartsRound, GameInvariant.RetryInv |

The event model (`Game.Step`) uses `RetryAsWritten` for Try Again, because it
describes the page as it behaves. `Retry` is the corrected definition. The
properties of the intended behaviour are proved about it.

## Left out

- Rendering: the JSX, the card component, the modals' layout and the timer bar
  at `src/pages/Game.tsx:250` are view code. The bar's width is floating point.
- Browser storage and navigation: `localStorage`, `navigate` and the redirect to
  the start page when no player is stored (lines 56-61). The leaderboard is a
  pure function on a `Store` record. The redirect is not modelled.
- Search-parameter decoding: `parseInt` of the restart parameters, including a
  `NaN` result. `Mount` takes the decoded integers. Like the code, it accepts
  any round and any score.
- Game.Mount: without `restart` it does not read the `level` parameter, so the
  crash of line 40 on a value such as `level=4` is not modelled (see above).
- The `testMode` prop, which opens the game-complete modal at once, is not modelled.
- Timing: the real delays of `setTimeout` and `setInterval`, React's effect
  ordering and batching, and stale callbacks are not modelled. Every callback
  is an event applied on its own. A new deal drops a pending resolution; the
  code does not cancel it.
- Deck.Shuffle: the random comparator sort is a caller-supplied list of
  transpositions. Whether the order is uniform is not modelled.
- The restart URL that Try Again writes takes effect only when the page is
  loaded from it afresh. That load is `Mount`. The intended `Retry` is that
  load with the session's own score, level and round. The model has no event
  for reloading the browser.
- TimeFormat.FormatTime: takes a natural number. Negative and fractional inputs
  are left out. The session's clock is proved never negative, so it never
  passes one. Exponent notation of very large numbers is also left out.
- Leaderboard.AppendScore: its own contract does not say which old entries
  survive on a full board, so on its own it would admit dropping a middle
  entry. `Leaderboard.AppendToSortedBoard` pins the result for sorted boards,
  the only ones the page writes; unsorted stored boards are pinned only by
  the body.
- Game.Flip: its contract states the rejection cases and the unchanged fields.
  The effect of an accepted click is stated by
  `GameInvariant.FlipAcceptedEffect` under the session invariant.

=== FILE: cards.dfy ===
/**
 * Cards on the table and the whole-table updates the game applies to them
 * (src/pages/Game.tsx, the `CardType` record and the `map` updates keyed on
 * a card id), with counting helpers used by the session invariant.
 */
module Cards {
  import opened Common

  datatype Card = Card(id: int, emoji: string, isFlipped: bool, isMatched: bool)

  /** A card showing its face while still waiting for its partner. */
  predicate FaceUpUnmatched(c: Card) { c.isFlipped && !c.isMatched }

  predicate IsMatched(c: Card) { c.isMatched }

  /** Number of cards satisfying `p`. */
  function Count(cards: seq<Card>, p: Card -> bool): (n: nat)
    ensures n <= |cards|
  {
    if |cards| == 0 then 0
    else Count(cards[..|cards| - 1], p) + (if p(cards[|cards| - 1]) then 1 else 0)
  }

  function CountFaceUp(cards: seq<Card>): nat { Count(cards, FaceUpUnmatched) }

  function CountMatched(cards: seq<Card>): nat { Count(cards, IsMatched) }

  /** The deal numbers cards by position: card i carries id i. */
  predicate IdsAreIndices(cards: seq<Card>) {
    forall i :: 0 <= i < |cards| ==> cards[i].id == i
  }

  function Emojis(cards: seq<Card>): (es: seq<string>)
    ensures |es| == |cards|
    ensures forall i :: 0 <= i < |cards| ==> es[i] == cards[i].emoji
  {
    seq(|cards|, i requires 0 <= i < |cards| => cards[i].emoji)
  }

  /** Two tables agree on which card (id and symbol) lies where. */
  predicate SameFaces(a: seq<Card>, b: seq<Card>) {
    |a| == |b| && forall i :: 0 <= i < |a| ==> a[i].id == b[i].id && a[i].emoji == b[i].emoji
  }

  lemma SameFacesSameEmojis(a: seq<Card>, b: seq<Card>)
    requires SameFaces(a, b)
    ensures Emojis(a) == Emojis(b)
    ensures IdsAreIndices(a) ==> IdsAreIndices(b)
  {
  }

  /** `cards.find(card => card.id === id)`: the first card with that id. */
  function FindById(cards: seq<Card>, id: int): (r: Option<Card>)
    ensures r.Some? ==> r.value in cards && r.value.id == id
    ensures r.None? <==> forall c :: c in cards ==> c.id != id
  {
    if |cards| == 0 then None
    else if cards[0].id == id then Some(cards[0])
    else FindById(cards[1..], id)
  }

  /** Turns face-up every card with the given id. */
  function FlipById(cards: seq<Card>, id: int): (r: seq<Card>)
    ensures SameFaces(cards, r)
  {
    seq(|cards|, i requires 0 <= i < |cards| =>
      if cards[i].id == id then cards[i].(isFlipped := true) else cards[i])
  }

  /** Marks as matched every card carrying one of the two ids. */
  function MatchIds(cards: seq<Card>, a: int, b: int): (r: seq<Card>)
    ensures SameFaces(cards, r)
  {
    seq(|cards|, i requires 0 <= i < |cards| =>
      if cards[i].id == a || cards[i].id == b then cards[i].(isMatched := true) else cards[i])
  }

  /** Turns face-down every card carrying one of the two ids. */
  function HideIds(cards: seq<Card>, a: int, b: int): (r: seq<Card>)
    ensures SameFaces(cards, r)
  {
    seq(|cards|, i requires 0 <= i < |cards| =>
      if cards[i].id == a || cards[i].id == b then cards[i].(isFlipped := false) else cards[i])
  }

  /** Turns every card face-down, as the end of the preview does. */
  function HideAll(cards: seq<Card>): (r: seq<Card>)
    ensures SameFaces(cards, r)
    ensures forall i :: 0 <= i < |r| ==> !r[i].isFlipped && r[i].isMatched == cards[i].isMatched
  {
    seq(|cards|, i requires 0 <= i < |cards| => cards[i].(isFlipped := false))
  }

  /**
   * The cards the click handler collects to decide whether a pair is now up:
   * the clicked card together with every face-up unmatched card, taken from
   * the table as it was before the click, in table order.
   */
  function PairCandidates(cards: seq<Card>, id: int): (r: seq<Card>)
    ensures |r| <= |cards|
    ensures forall c :: c in r ==> c in cards && (c.id == id || FaceUpUnmatched(c))
  {
    if |cards| == 0 then []
    else
      var n := |cards| - 1;
      var rest := PairCandidates(cards[..n], id);
      if cards[n].id == id || FaceUpUnmatched(cards[n]) then rest + [cards[n]] else rest
  }

  /**
   * On a table numbered by position, when the clicked card is not itself
   * face-up and unmatched, the collected cards are the clicked one plus the
   * face-up unmatched ones, each taken from its own position, in increasing
   * id order.
   */
  lemma PairCandidatesShape(cards: seq<Card>, id: int)
    requires IdsAreIndices(cards)
    requires 0 <= id < |cards| ==> !FaceUpUnmatched(cards[id])
    ensures var r := PairCandidates(cards, id);
      && |r| == CountFaceUp(cards) + (if 0 <= id < |cards| then 1 else 0)
      && (forall k :: 0 <= k < |r| ==> 0 <= r[k].id < |cards| && cards[r[k].id] == r[k])
      && IdsIncreasing(r)
  {
    PairCandidatesCount(cards, id);
    PairCandidatesInPlace(cards, id);
  }

  lemma {:induction false} PairCandidatesCount(cards: seq<Card>, id: int)
    requires IdsAreIndices(cards)
    requires 0 <= id < |cards| ==> !FaceUpUnmatched(cards[id])
    ensures |PairCandidates(cards, id)| == CountFaceUp(cards) + (if 0 <= id < |cards| then 1 else 0)
    decreases |cards|
  {
    if |cards| > 0 {
      var n := |cards| - 1;
      var pre := cards[..n];
      assert IdsAreIndices(pre);
      assert 0 <= id < n ==> pre[id] == cards[id];
      PairCandidatesCount(pre, id);
      assert cards[n].id == n;
    }
  }

  predicate IdsIncreasing(r: seq<Card>) {
    forall j, k :: 0 <= j < k < |r| ==> r[j].id < r[k].id
  }

  lemma {:induction false} PairCandidatesInPlace(cards: seq<Card>, id: int)
    requires IdsAreIndices(cards)
    ensures var r := PairCandidates(cards, id);
      && (forall k :: 0 <= k < |r| ==> 0 <= r[k].id < |cards| && cards[r[k].id] == r[k])
      && IdsIncreasing(r)
    decreases |cards|
  {
    if |cards| > 0 {
      var n := |cards| - 1;
      var pre := cards[..n];
      assert IdsAreIndices(pre);
      PairCandidatesInPlace(pre, id);
      var rest := PairCandidates(pre, id);
      forall k | 0 <= k < |rest| ensures 0 <= rest[k].id < n && cards[rest[k].id] == rest[k] {
        assert pre[rest[k].id] == rest[k];
      }
      if cards[n].id == id || FaceUpUnmatched(cards[n]) {
        AppendAbove(rest, cards[n]);
        var r := rest + [cards[n]];
        forall k | 0 <= k < |r| ensures 0 <= r[k].id < |cards| && cards[r[k].id] == r[k] {
          if k < |rest| { assert r[k] == rest[k]; }
        }
      }
    }
  }

  /** A card numbered above every collected one keeps the order when appended. */
  lemma AppendAbove(rest: seq<Card>, c: Card)
    requires IdsIncreasing(rest)
    requires forall k :: 0 <= k < |rest| ==> rest[k].id < c.id
    ensures IdsIncreasing(rest + [c])
  {
    var r := rest + [c];
    forall j, k | 0 <= j < k < |r| ensures r[j].id < r[k].id {
      assert r[j] == rest[j];
      if k < |rest| { assert r[k] == rest[k]; }
    }
  }

  // ---------------------------------------------------------------------------
  // Counting lemmas

  lemma {:induction false} CountUpdate(cards: seq<Card>, i: int, c: Card, p: Card -> bool)
    requires 0 <= i < |cards|
    ensures Count(cards[i := c], p)
         == Count(cards, p) - (if p(cards[i]) then 1 else 0) + (if p(c) then 1 else 0)
    decreases |cards|
  {
    var n := |cards| - 1;
    var u := cards[i := c];
    assert u[..n] == if i == n then cards[..n] else cards[..n][i := c];
    if i < n {
      CountUpdate(cards[..n], i, c, p);
    }
  }

  lemma {:induction false} CountNone(cards: seq<Card>, p: Card -> bool)
    requires forall i :: 0 <= i < |cards| ==> !p(cards[i])
    ensures Count(cards, p) == 0
    decreases |cards|
  {
    if |cards| > 0 {
      CountNone(cards[..|cards| - 1], p);
    }
  }

  lemma {:induction false} CountAll(cards: seq<Card>, p: Card -> bool)
    requires forall i :: 0 <= i < |cards| ==> p(cards[i])
    ensures Count(cards, p) == |cards|
    decreases |cards|
  {
    if |cards| > 0 {
      CountAll(cards[..|cards| - 1], p);
    }
  }

  /** Only a table where every card satisfies `p` reaches the full count. */
  lemma {:induction false} CountFullMeansAll(cards: seq<Card>, p: Card -> bool)
    requires Count(cards, p) == |cards|
    ensures forall i :: 0 <= i < |cards| ==> p(cards[i])
    decreases |cards|
  {
    if |cards| > 0 {
      var n := |cards| - 1;
      assert Count(cards[..n], p) <= n;
      CountFullMeansAll(cards[..n], p);
      forall i | 0 <= i < |cards| ensures p(cards[i]) {
        if i < n { assert cards[i] == cards[..n][i]; }
      }
    }
  }

  /** Two distinct cards failing `p` leave room for at least two more. */
  lemma TwoOutsideCount(cards: seq<Card>, a: int, b: int, p: Card -> bool, x: Card)
    requires 0 <= a < |cards| && 0 <= b < |cards| && a != b
    requires !p(cards[a]) && !p(cards[b]) && p(x)
    ensures Count(cards, p) + 2 <= |cards|
  {
    CountUpdate(cards, a, x, p);
    CountUpdate(cards[a := x], b, x, p);
  }

  /**
   * Matching the two face-up unmatched cards of a table adds two matched
   * cards and leaves none face-up and unmatched.
   */
  lemma MatchPairCounts(cards: seq<Card>, a: int, b: int)
    requires 0 <= a < |cards| && 0 <= b < |cards| && a != b
    requires FaceUpUnmatched(cards[a]) && FaceUpUnmatched(cards[b]) && CountFaceUp(cards) == 2
    ensures var u := cards[a := cards[a].(isMatched := true)][b := cards[b].(isMatched := true)];
      && CountMatched(u) == CountMatched(cards) + 2
      && CountFaceUp(u) == 0
      && CountMatched(cards) + 2 <= |cards|
  {
    var ma, mb := cards[a].(isMatched := true), cards[b].(isMatched := true);
    TwoOutsideCount(cards, a, b, IsMatched, ma);
    CountUpdate(cards, a, ma, IsMatched);
    CountUpdate(cards[a := ma], b, mb, IsMatched);
    CountUpdate(cards, a, ma, FaceUpUnmatched);
    CountUpdate(cards[a := ma], b, mb, FaceUpUnmatched);
  }

  /**
   * Turning the two face-up unmatched cards of a table face-down leaves the
   * matched count alone and none face-up and unmatched.
   */
  lemma HidePairCounts(cards: seq<Card>, a: int, b: int)
    requires 0 <= a < |cards| && 0 <= b < |cards| && a != b
    requires FaceUpUnmatched(cards[a]) && FaceUpUnmatched(cards[b]) && CountFaceUp(cards) == 2
    ensures var u := cards[a := cards[a].(isFlipped := false)][b := cards[b].(isFlipped := false)];
      && CountMatched(u) == CountMatched(cards)
      && CountFaceUp(u) == 0
  {
    var ha, hb := cards[a].(isFlipped := false), cards[b].(isFlipped := false);
    CountUpdate(cards, a, ha, IsMatched);
    CountUpdate(cards[a := ha], b, hb, IsMatched);
    CountUpdate(cards, a, ha, FaceUpUnmatched);
    CountUpdate(cards[a := ha], b, hb, FaceUpUnmatched);
  }

  // ---------------------------------------------------------------------------
  // Id-keyed updates on a table numbered by position

  lemma FlipByIdAt(cards: seq<Card>, id: int)
    requires IdsAreIndices(cards)
    ensures 0 <= id < |cards| ==> FlipById(cards, id) == cards[id := cards[id].(isFlipped := true)]
    ensures !(0 <= id < |cards|) ==> FlipById(cards, id) == cards
  {
  }

  lemma MatchIdsAt(cards: seq<Card>, a: int, b: int)
    requires IdsAreIndices(cards)
    requires 0 <= a < |cards| && 0 <= b < |cards|
    ensures MatchIds(cards, a, b)
         == cards[a := cards[a].(isMatched := true)][b := cards[b].(isMatched := true)]
  {
  }

  lemma HideIdsAt(cards: seq<Card>, a: int, b: int)
    requires IdsAreIndices(cards)
    requires 0 <= a < |cards| && 0 <= b < |cards|
    ensures HideIds(cards, a, b)
         == cards[a := cards[a].(isFlipped := false)][b := cards[b].(isFlipped := false)]
  {
  }

  lemma FindByIdAt(cards: seq<Card>, id: int)
    requires IdsAreIndices(cards)
    ensures FindById(cards, id) == if 0 <= id < |cards| then Some(cards[id]) else None
  {
    if 0 <= id < |cards| {
      FindFirst(cards, id, id);
    }
  }

  /** `find` returns the first card carrying the id. */
  lemma {:induction false} FindFirst(cards: seq<Card>, id: int, k: int)
    requires 0 <= k < |cards| && cards[k].id == id
    requires forall i :: 0 <= i < k ==> cards[i].id != id
    ensures FindById(cards, id) == Some(cards[k])
    decreases k
  {
    if k > 0 {
      FindFirst(cards[1..], id, k - 1);
    }
  }
}

=== FILE: common.dfy ===
/** Failure-carrying result types shared by the game modules. */
module Common {

  datatype Option<+T> = None | Some(value: T)

  datatype Result<+T, +E> = Ok(value: T) | Err(error: E)

  /** The configuration errors the session can hit when it is started. */
  datatype GameError = InvalidLevel(level: int)
}

=== FILE: deck.dfy ===
/**
 * Dealing a level's deck (`initializeCards` in src/pages/Game.tsx): the
 * level's first `pairs` symbols are written out twice, put in a random
 * order, and numbered by position, every card face-up and unmatched.
 *
 * The random order is not modelled as a random process: the caller supplies
 * it as a list of transpositions, which can express any ordering of the
 * doubled symbol list (`ShuffleCanReach`).
 */
module Deck {
  import opened Common
  import opened Levels
  import opened Cards

  /** Exchanges the entries at `i` and `j`; an index outside the sequence leaves it alone. */
  function Swap<T>(xs: seq<T>, i: int, j: int): (r: seq<T>)
    ensures |r| == |xs| && multiset(r) == multiset(xs)
  {
    if 0 <= i < |xs| && 0 <= j < |xs| then xs[i := xs[j]][j := xs[i]] else xs
  }

  /** Applies the transpositions in order. */
  function Shuffle<T>(xs: seq<T>, swaps: seq<(int, int)>): (r: seq<T>)
    ensures |r| == |xs|
    decreases |swaps|
  {
    if |swaps| == 0 then xs else Shuffle(Swap(xs, swaps[0].0, swaps[0].1), swaps[1..])
  }

  /** Shuffling only rearranges. */
  lemma {:induction false} ShufflePermutes<T>(xs: seq<T>, swaps: seq<(int, int)>)
    ensures multiset(Shuffle(xs, swaps)) == multiset(xs)
    decreases |swaps|
  {
    if |swaps| > 0 {
      ShufflePermutes(Swap(xs, swaps[0].0, swaps[0].1), swaps[1..]);
    }
  }

  /** The symbols a level plays with: `EMOJIS.slice(0, pairs)`. */
  function LevelEmojis(level: Level): (es: seq<string>)
    ensures |es| == Pairs(level) && Distinct(es)
    ensures forall k :: 0 <= k < |es| ==> es[k] == EMOJIS[k]
  {
    LevelTableConsistent(level);
    EmojisDistinct();
    EMOJIS[..Pairs(level)]
  }

  /** The unshuffled deck contents `[...levelEmojis, ...levelEmojis]`. */
  function PairedEmojis(level: Level): seq<string> {
    LevelEmojis(level) + LevelEmojis(level)
  }

  /**
   * A fresh deck for `level`, laid out in the order `swaps` produces:
   * `2 * pairs` cards numbered 0 .. 2*pairs-1 by position, all face-up
   * (the preview) and unmatched, holding the paired symbols.
   */
  function Deal(level: Level, swaps: seq<(int, int)>): (cards: seq<Card>)
    ensures |cards| == 2 * Pairs(level)
    ensures IdsAreIndices(cards)
    ensures forall i :: 0 <= i < |cards| ==> cards[i].isFlipped && !cards[i].isMatched
    ensures multiset(Emojis(cards)) == multiset(PairedEmojis(level))
  {
    var order := Shuffle(PairedEmojis(level), swaps);
    ShufflePermutes(PairedEmojis(level), swaps);
    var cards := seq(|order|, i requires 0 <= i < |order| => Card(i, order[i], true, false));
    assert Emojis(cards) == order;
    cards
  }

  /**
   * `initializeCards` looks the level up in the table first; a level outside
   * the table has no configuration and no deck.
   */
  function InitializeCards(level: int, swaps: seq<(int, int)>): (r: Result<seq<Card>, GameError>)
    ensures r.Err? <==> !(1 <= level <= 3)
    ensures r.Err? ==> r.error == InvalidLevel(level)
    ensures r.Ok? ==> |r.value| == 2 * Pairs(level) && IdsAreIndices(r.value)
    ensures r.Ok? ==> forall i :: 0 <= i < |r.value| ==> r.value[i].isFlipped && !r.value[i].isMatched
    ensures r.Ok? ==> 1 <= level <= 3 && IsDeckOf(r.value, level)
  {
    match ConfigFor(level)
    case Err(e) => Err(e)
    case Ok(_) =>
      DealIsDeck(level, swaps);
      Ok(Deal(level, swaps))
  }

  /** A table that could have come out of `Deal` for this level. */
  predicate IsDeckOf(cards: seq<Card>, level: Level) {
    && |cards| == 2 * Pairs(level)
    && IdsAreIndices(cards)
    && multiset(Emojis(cards)) == multiset(PairedEmojis(level))
  }

  /** Each entry of a sequence without repeats occurs exactly once. */
  lemma {:induction false} DistinctMultiplicity<T>(s: seq<T>, x: T)
    requires Distinct(s)
    ensures multiset(s)[x] == if x in s then 1 else 0
    decreases |s|
  {
    if |s| > 0 {
      var n := |s| - 1;
      assert s == s[..n] + [s[n]];
      assert Distinct(s[..n]);
      DistinctMultiplicity(s[..n], x);
      assert s[n] !in s[..n];
    }
  }

  /**
   * Every deck of a level holds each of the level's symbols exactly twice and
   * no other symbol, whatever order it was dealt in.
   */
  lemma DeckHoldsPairs(cards: seq<Card>, level: Level, e: string)
    requires IsDeckOf(cards, level)
    ensures multiset(Emojis(cards))[e] == if e in LevelEmojis(level) then 2 else 0
    ensures e in LevelEmojis(level) <==> exists k :: 0 <= k < Pairs(level) && e == EMOJIS[k]
  {
    DistinctMultiplicity(LevelEmojis(level), e);
    if e in LevelEmojis(level) {
      var k :| 0 <= k < Pairs(level) && LevelEmojis(level)[k] == e;
    }
  }

  lemma DealIsDeck(level: Level, swaps: seq<(int, int)>)
    ensures IsDeckOf(Deal(level, swaps), level)
  {
  }

  // ---------------------------------------------------------------------------
  // Every arrangement is reachable

  function ShiftSwaps(swaps: seq<(int, int)>): (r: seq<(int, int)>)
    ensures |r| == |swaps|
    ensures forall k :: 0 <= k < |r| ==> r[k] == (swaps[k].0 + 1, swaps[k].1 + 1)
  {
    if |swaps| == 0 then [] else [(swaps[0].0 + 1, swaps[0].1 + 1)] + ShiftSwaps(swaps[1..])
  }

  /** Transpositions moved one place right act on the tail only. */
  lemma {:induction false} ShuffleShifted<T>(x: T, xs: seq<T>, swaps: seq<(int, int)>)
    requires NonNegative(swaps)
    ensures Shuffle([x] + xs, ShiftSwaps(swaps)) == [x] + Shuffle(xs, swaps)
    decreases |swaps|
  {
    if |swaps| > 0 {
      var i, j := swaps[0].0, swaps[0].1;
      var shifted := ShiftSwaps(swaps);
      SwapShifted(x, xs, i, j);
      assert shifted[0] == (i + 1, j + 1);
      assert shifted[1..] == ShiftSwaps(swaps[1..]);
      ShuffleShifted(x, Swap(xs, i, j), swaps[1..]);
    }
  }

  lemma SwapShifted<T>(x: T, xs: seq<T>, i: int, j: int)
    requires i >= 0 && j >= 0
    ensures Swap([x] + xs, i + 1, j + 1) == [x] + Swap(xs, i, j)
  {
    if i < |xs| && j < |xs| {
      var l := [x] + xs;
      var r := [x] + xs[i := xs[j]][j := xs[i]];
      assert l[i + 1 := l[j + 1]][j + 1 := l[i + 1]] == r;
    }
  }

  lemma MultisetTail<T>(a: seq<T>, b: seq<T>)
    requires |a| > 0 && |b| > 0 && a[0] == b[0] && multiset(a) == multiset(b)
    ensures multiset(a[1..]) == multiset(b[1..])
  {
    assert a == [a[0]] + a[1..];
    assert b == [b[0]] + b[1..];
    assert multiset(a[1..]) == multiset(a) - multiset{a[0]};
    assert multiset(b[1..]) == multiset(b) - multiset{b[0]};
  }

  /**
   * Any rearrangement of `xs` is produced by some list of transpositions, so
   * taking the order as a list of transpositions loses no possible deal.
   */
  lemma {:induction false} ShuffleCanReach<T>(xs: seq<T>, target: seq<T>) returns (swaps: seq<(int, int)>)
    requires multiset(xs) == multiset(target)
    ensures Shuffle(xs, swaps) == target
    ensures NonNegative(swaps)
    decreases |xs|
  {
    assert |target| == |multiset(target)| == |xs|;
    if |xs| == 0 {
      swaps := [];
    } else {
      var j := IndexOf(xs, target[0]);
      var ys := SwapToFront(xs, j, target);
      var rest := ShuffleCanReach(ys[1..], target[1..]);
      swaps := ReachStep(xs, j, rest, target);
    }
  }

  predicate NonNegative(swaps: seq<(int, int)>) {
    forall k :: 0 <= k < |swaps| ==> swaps[k].0 >= 0 && swaps[k].1 >= 0
  }

  /** Bringing the wanted first entry to the front leaves the rest to arrange. */
  lemma SwapToFront<T>(xs: seq<T>, j: int, target: seq<T>) returns (ys: seq<T>)
    requires 0 <= j < |xs| && |target| > 0 && xs[j] == target[0]
    requires multiset(xs) == multiset(target)
    ensures ys == Swap(xs, 0, j) && |ys| > 0
    ensures multiset(ys[1..]) == multiset(target[1..])
  {
    ys := Swap(xs, 0, j);
    assert ys[0] == target[0];
    MultisetTail(ys, target);
  }

  /** One transposition to the front, then the shifted arrangement of the tail. */
  lemma ReachStep<T>(xs: seq<T>, j: int, rest: seq<(int, int)>, target: seq<T>) returns (swaps: seq<(int, int)>)
    requires 0 <= j < |xs| && |target| > 0 && xs[j] == target[0]
    requires NonNegative(rest)
    requires Shuffle(Swap(xs, 0, j)[1..], rest) == target[1..]
    ensures swaps == [(0, j)] + ShiftSwaps(rest)
    ensures Shuffle(xs, swaps) == target
    ensures NonNegative(swaps)
  {
    var ys := Swap(xs, 0, j);
    swaps := [(0, j)] + ShiftSwaps(rest);
    ShuffleCons(xs, (0, j), ShiftSwaps(rest));
    ShuffleShiftedAt(ys, rest);
    assert ys[0] == target[0];
    assert target == [target[0]] + target[1..];
    PrefixedNonNegative(j, rest);
  }

  lemma ShuffleCons<T>(xs: seq<T>, sw: (int, int), tail: seq<(int, int)>)
    ensures Shuffle(xs, [sw] + tail) == Shuffle(Swap(xs, sw.0, sw.1), tail)
  {
    assert ([sw] + tail)[1..] == tail;
  }

  lemma ShuffleShiftedAt<T>(ys: seq<T>, rest: seq<(int, int)>)
    requires |ys| > 0 && NonNegative(rest)
    ensures Shuffle(ys, ShiftSwaps(rest)) == [ys[0]] + Shuffle(ys[1..], rest)
  {
    assert ys == [ys[0]] + ys[1..];
    ShuffleShifted(ys[0], ys[1..], rest);
  }

  lemma PrefixedNonNegative(j: int, rest: seq<(int, int)>)
    requires j >= 0 && NonNegative(rest)
    ensures NonNegative([(0, j)] + ShiftSwaps(rest))
  {
    var swaps := [(0, j)] + ShiftSwaps(rest);
    forall k | 0 <= k < |swaps| ensures swaps[k].0 >= 0 && swaps[k].1 >= 0 {
      if k > 0 { assert swaps[k] == ShiftSwaps(rest)[k - 1]; }
    }
  }

  /** A position holding `x`, for an `x` the sequence contains. */
  lemma IndexOf<T>(xs: seq<T>, x: T) returns (j: int)
    requires x in multiset(xs)
    ensures 0 <= j < |xs| && xs[j] == x
  {
    j :| 0 <= j < |xs| && xs[j] == x;
  }
}

=== FILE: game.dfy ===
/**
 * The game session of src/pages/Game.tsx as a state machine over an explicit
 * record. Each React state variable is a field; each timer or user action is
 * a transition function applied on its own:
 *   - `Mount`        the component's initial state plus the first deal,
 *   - `PreviewEnd`   the 3-second preview timeout,
 *   - `Tick`         one firing of the 1-second countdown interval,
 *   - `Flip`         `handleCardClick`,
 *   - `Resolve`      the 500 ms match / 1000 ms mismatch timeout it schedules,
 *                    followed by the round-complete effect,
 *   - `NextRound`    `handleNextRound`,
 *   - `RetryAsWritten` `handleTryAgain` as the code does it, and `Retry`
 *                    the intended restart of the round from the
 *                    restart parameters.
 */
module Game {
  import opened Common
  import opened Levels
  import opened Cards
  import opened Deck

  /**
   * A scheduled pair resolution. The timeout callback closes over the two
   * collected cards as the click saw them and over the level at the time of
   * the click.
   */
  datatype Pending = Pending(first: Card, second: Card, level: Level)

  datatype Session = Session(
    cards: seq<Card>,
    matchedPairs: int,
    score: int,
    level: Level,
    round: int,
    timeLeft: int,
    gameStarted: bool,
    /** the preview timeout of the current deal has not fired yet */
    previewScheduled: bool,
    /** the pair resolution waiting on its timeout, if any */
    pending: Option<Pending>,
    showTimeUp: bool,
    showRoundComplete: bool,
    showGameComplete: bool)

  /** The `restart`, `score`, `level` and `round` search parameters of a retry. */
  datatype RestartParams = RestartParams(score: int, level: int, round: int)

  /**
   * `initializeCards`: a fresh deck of the session's level, play stopped,
   * both modals closed, no pairs matched and the level's full time on the
   * clock. `preview` says whether a preview timeout is scheduled with it.
   * Score, level, round and the game-complete modal are not touched.
   */
  function Redeal(s: Session, swaps: seq<(int, int)>, preview: bool): (t: Session)
    ensures IsDeckOf(t.cards, t.level)
    ensures forall i :: 0 <= i < |t.cards| ==> t.cards[i].isFlipped && !t.cards[i].isMatched
    ensures t.matchedPairs == 0 && t.timeLeft == Time(t.level) && t.pending.None?
    ensures !t.gameStarted && !t.showTimeUp && !t.showRoundComplete
    ensures t.score == s.score && t.level == s.level && t.round == s.round
    ensures t.showGameComplete == s.showGameComplete && t.previewScheduled == preview
  {
    DealIsDeck(s.level, swaps);
    s.(cards := Deal(s.level, swaps), gameStarted := false, showTimeUp := false,
       showRoundComplete := false, matchedPairs := 0, timeLeft := Time(s.level),
       pending := None, previewScheduled := preview)
  }

  /**
   * Entering the game page. Without restart parameters the game starts at
   * score 0, level 1, round 1; with them it resumes from the given score,
   * level and round. A level outside the table has no configuration.
   * The first deal happens at once and its preview timeout is scheduled.
   */
  function Mount(restart: Option<RestartParams>, swaps: seq<(int, int)>): (r: Result<Session, GameError>)
    ensures restart.None? ==> r.Ok? && r.value.score == 0 && r.value.level == 1 && r.value.round == 1
    ensures restart.Some? ==> (r.Ok? <==> 1 <= restart.value.level <= 3)
    ensures restart.Some? && r.Ok? ==>
      r.value.score == restart.value.score && r.value.level == restart.value.level
      && r.value.round == restart.value.round
    ensures r.Err? ==> r.error == InvalidLevel(restart.value.level)
    ensures r.Ok? ==> IsDeckOf(r.value.cards, r.value.level) && r.value.previewScheduled
    ensures r.Ok? ==> !r.value.gameStarted && r.value.matchedPairs == 0
    ensures r.Ok? ==> r.value.timeLeft == Time(r.value.level) && !r.value.showGameComplete
    ensures r.Ok? ==> forall i :: 0 <= i < |r.value.cards| ==>
      r.value.cards[i].isFlipped && !r.value.cards[i].isMatched
    ensures r.Ok? ==> !r.value.showTimeUp && !r.value.showRoundComplete && r.value.pending.None?
  {
    var score := if restart.Some? then restart.value.score else 0;
    var level := if restart.Some? then restart.value.level else 1;
    var round := if restart.Some? then restart.value.round else 1;
    match ConfigFor(level)
    case Err(e) => Err(e)
    case Ok(config) =>
      var blank := Session([], 0, score, level, round, config.time, false, false, None,
                           false, false, false);
      Ok(Redeal(blank, swaps, true))
  }

  /** A fresh game. */
  function NewGame(swaps: seq<(int, int)>): (s: Session)
    ensures s.score == 0 && s.level == 1 && s.round == 1
    ensures IsDeckOf(s.cards, 1) && s.matchedPairs == 0 && s.timeLeft == Time(1)
  {
    Mount(None, swaps).value
  }

  /**
   * `handleTryAgain` as written: play stops and the router is sent to the
   * `/game` route with the current score, level and round as search
   * parameters. That route is the page already on screen, so the page is not
   * entered again: its state is kept, no deck is dealt, and the interval
   * stops with play. Timeouts already scheduled (the preview, a pair
   * resolution) still fire.
   */
  function RetryAsWritten(s: Session): (t: Session)
    ensures !t.gameStarted
    ensures t.cards == s.cards && t.score == s.score && t.matchedPairs == s.matchedPairs
    ensures t.level == s.level && t.round == s.round && t.timeLeft == s.timeLeft
    ensures t.pending == s.pending && t.previewScheduled == s.previewScheduled
    ensures t.showTimeUp == s.showTimeUp && t.showRoundComplete == s.showRoundComplete
    ensures t.showGameComplete == s.showGameComplete
  {
    s.(gameStarted := false)
  }

  /**
   * The evidently intended Try Again: the page is entered afresh with the
   * current score, level and round as restart parameters, which deals a
   * fresh deck of the same round and schedules its preview.
   */
  function Retry(s: Session, swaps: seq<(int, int)>): (t: Session)
    ensures t.score == s.score && t.level == s.level && t.round == s.round
    ensures IsDeckOf(t.cards, t.level) && t.matchedPairs == 0 && t.timeLeft == Time(t.level)
    ensures t.previewScheduled && !t.gameStarted && !t.showTimeUp && !t.showRoundComplete
  {
    Mount(Some(RestartParams(s.score, s.level, s.round)), swaps).value
  }

  /** The preview timeout: every card turns face-down and play starts. */
  function PreviewEnd(s: Session): (t: Session)
    ensures !s.previewScheduled ==> t == s
    ensures s.previewScheduled ==> t.gameStarted && !t.previewScheduled
    ensures SameFaces(s.cards, t.cards)
    ensures s.previewScheduled ==> forall i :: 0 <= i < |t.cards| ==>
      !t.cards[i].isFlipped && t.cards[i].isMatched == s.cards[i].isMatched
    ensures t.score == s.score && t.matchedPairs == s.matchedPairs && t.timeLeft == s.timeLeft
    ensures t.level == s.level && t.round == s.round && t.pending == s.pending
    ensures t.showTimeUp == s.showTimeUp && t.showRoundComplete == s.showRoundComplete
    ensures t.showGameComplete == s.showGameComplete
  {
    if !s.previewScheduled then s
    else s.(cards := HideAll(s.cards), gameStarted := true, previewScheduled := false)
  }

  /**
   * One firing of the countdown interval, which runs only while play is on.
   * The clock never goes below zero: the firing that would take it there
   * stops play and raises the time-up modal instead.
   */
  function Tick(s: Session): (t: Session)
    ensures !s.gameStarted ==> t == s
    ensures s.gameStarted ==> t.timeLeft >= 0
    ensures s.gameStarted && s.timeLeft > 1 ==> t.timeLeft == s.timeLeft - 1 && t.gameStarted
    ensures s.gameStarted && s.timeLeft > 1 ==> t.showTimeUp == s.showTimeUp
    ensures s.gameStarted && s.timeLeft <= 1 ==> t.timeLeft == 0 && t.showTimeUp && !t.gameStarted
    ensures t.cards == s.cards && t.score == s.score && t.matchedPairs == s.matchedPairs
    ensures t.level == s.level && t.round == s.round && t.pending == s.pending
    ensures t.showRoundComplete == s.showRoundComplete && t.showGameComplete == s.showGameComplete
    ensures t.previewScheduled == s.previewScheduled
  {
    if !s.gameStarted then s
    else if s.timeLeft <= 1 then s.(timeLeft := 0, showTimeUp := true, gameStarted := false)
    else s.(timeLeft := s.timeLeft - 1)
  }

  /**
   * `handleCardClick(id)`. The click is ignored before play starts or once
   * the clock is out, when no card has the id, when that card is matched or
   * already face-up, and while two face-up unmatched cards are waiting.
   * Otherwise the card turns face-up; when the clicked card and the cards
   * that were already face-up and unmatched make exactly two, their
   * resolution is scheduled.
   */
  function Flip(s: Session, id: int): (t: Session)
    ensures !s.gameStarted || s.timeLeft <= 0 ==> t == s
    ensures FindById(s.cards, id).None? ==> t == s
    ensures FindById(s.cards, id).Some? && FindById(s.cards, id).value.isMatched ==> t == s
    ensures FindById(s.cards, id).Some? && FindById(s.cards, id).value.isFlipped ==> t == s
    ensures CountFaceUp(s.cards) >= 2 ==> t == s
    ensures SameFaces(s.cards, t.cards)
    ensures t.score == s.score && t.matchedPairs == s.matchedPairs && t.timeLeft == s.timeLeft
    ensures t.level == s.level && t.round == s.round && t.gameStarted == s.gameStarted
    ensures t.previewScheduled == s.previewScheduled && t.showRoundComplete == s.showRoundComplete
    ensures t.showTimeUp == s.showTimeUp && t.showGameComplete == s.showGameComplete
  {
    if !s.gameStarted || s.timeLeft <= 0 then s
    else match FindById(s.cards, id)
      case None => s
      case Some(clicked) =>
        if clicked.isMatched || clicked.isFlipped then s
        else if CountFaceUp(s.cards) >= 2 then s
        else
          var collected := PairCandidates(s.cards, id);
          s.(cards := FlipById(s.cards, id),
             pending := if |collected| == 2 then Some(Pending(collected[0], collected[1], s.level))
                        else s.pending)
  }

  /** The guard of `handleCardClick`: the click is taken. */
  predicate FlipAccepted(s: Session, id: int) {
    && s.gameStarted && s.timeLeft > 0
    && FindById(s.cards, id).Some?
    && !FindById(s.cards, id).value.isMatched && !FindById(s.cards, id).value.isFlipped
    && CountFaceUp(s.cards) < 2
  }

  /**
   * The round-complete effect: once every pair of the level is matched the
   * round-complete modal opens and play stops.
   */
  function CheckRoundComplete(s: Session): (t: Session)
    ensures t.showRoundComplete == (s.showRoundComplete || s.matchedPairs == Pairs(s.level))
    ensures t.gameStarted == (s.gameStarted && s.matchedPairs != Pairs(s.level))
    ensures t.cards == s.cards && t.score == s.score && t.matchedPairs == s.matchedPairs
    ensures t.level == s.level && t.round == s.round && t.timeLeft == s.timeLeft && t.pending == s.pending
    ensures t.showTimeUp == s.showTimeUp && t.showGameComplete == s.showGameComplete
    ensures t.previewScheduled == s.previewScheduled
  {
    if s.matchedPairs == Pairs(s.level) then s.(showRoundComplete := true, gameStarted := false) else s
  }

  /**
   * The scheduled resolution fires. Two cards with the same symbol are marked
   * matched, one more pair is counted and `100 * level` points, with the
   * level captured at click time, are added; then the round-complete effect
   * runs. Two different symbols turn both cards face-down again.
   */
  function Resolve(s: Session): (t: Session)
    ensures s.pending.None? ==> t == s
    ensures t.pending.None?
    ensures SameFaces(s.cards, t.cards)
    ensures t.score >= s.score && t.matchedPairs >= s.matchedPairs
    ensures s.pending.Some? && s.pending.value.first.emoji == s.pending.value.second.emoji ==>
      t.score == s.score + s.pending.value.level * 100 && t.matchedPairs == s.matchedPairs + 1
      && t.gameStarted == (s.gameStarted && s.matchedPairs + 1 != Pairs(s.level))
      && t.showRoundComplete == (s.showRoundComplete || s.matchedPairs + 1 == Pairs(s.level))
    ensures s.pending.Some? && s.pending.value.first.emoji != s.pending.value.second.emoji ==>
      t.score == s.score && t.matchedPairs == s.matchedPairs && t.gameStarted == s.gameStarted
      && t.showRoundComplete == s.showRoundComplete
    ensures t.level == s.level && t.round == s.round && t.timeLeft == s.timeLeft
    ensures t.previewScheduled == s.previewScheduled && t.showTimeUp == s.showTimeUp
    ensures t.showGameComplete == s.showGameComplete
  {
    match s.pending
    case None => s
    case Some(p) =>
      if p.first.emoji == p.second.emoji then
        CheckRoundComplete(s.(cards := MatchIds(s.cards, p.first.id, p.second.id),
                              matchedPairs := s.matchedPairs + 1,
                              score := s.score + p.level * 100,
                              pending := None))
      else
        s.(cards := HideIds(s.cards, p.first.id, p.second.id), pending := None)
  }

  /**
   * `handleNextRound`. Before the third round of a level the round advances;
   * after it the level advances and the round starts again at 1; after the
   * third round of the last level the game-complete modal opens instead.
   * A fresh deck is dealt in every case. Only a change of level or round
   * re-runs the effect that schedules a preview, so on the last round the
   * new deck stays face-up and play does not restart.
   */
  function NextRound(s: Session, swaps: seq<(int, int)>): (t: Session)
    ensures s.round < RoundsPerLevel ==> t.level == s.level && t.round == s.round + 1 && t.previewScheduled
    ensures s.round >= RoundsPerLevel && s.level < MaxLevel ==>
      t.level == s.level + 1 && t.round == 1 && t.previewScheduled
    ensures s.round >= RoundsPerLevel && s.level == MaxLevel ==>
      t.showGameComplete && t.level == s.level && t.round == s.round
      && t.previewScheduled == s.previewScheduled
    ensures 1 <= s.round <= RoundsPerLevel ==> 1 <= t.round <= RoundsPerLevel
    ensures t.score == s.score && !t.showRoundComplete && !t.gameStarted
    ensures IsDeckOf(t.cards, t.level) && t.matchedPairs == 0 && t.timeLeft == Time(t.level)
  {
    if s.round < RoundsPerLevel then Redeal(s.(round := s.round + 1), swaps, true)
    else if s.level < MaxLevel then Redeal(s.(level := s.level + 1, round := 1), swaps, true)
    else Redeal(s.(showGameComplete := true), swaps, s.previewScheduled)
  }

  // ---------------------------------------------------------------------------
  // Runs of events

  /** What can happen to a session: a timer firing or a button press. */
  datatype Event =
    | Click(id: int)
    | ResolveFires
    | TickFires
    | PreviewFires
    | NextRoundPressed(swaps: seq<(int, int)>)
    | TryAgainPressed

  /**
   * One event. The Next Round button exists only in the round-complete
   * modal, so pressing it is possible only while that modal is shown. Try
   * Again is offered by the footer's Restart button and by the time-up
   * modal; the model lets it be pressed in every state, which is more than
   * the overlays allow and so covers every order the page permits.
   */
  function Step(s: Session, e: Event): (t: Session)
    ensures WithinRound(e) ==> t.level == s.level && t.round == s.round && t.showGameComplete == s.showGameComplete
    ensures e.NextRoundPressed? && !s.showRoundComplete ==> t == s
    ensures e.NextRoundPressed? && s.showRoundComplete ==> t.matchedPairs == 0 && !t.showRoundComplete
  {
    match e
    case Click(id) => Flip(s, id)
    case ResolveFires => Resolve(s)
    case TickFires => Tick(s)
    case PreviewFires => PreviewEnd(s)
    case NextRoundPressed(swaps) => if s.showRoundComplete then NextRound(s, swaps) else s
    case TryAgainPressed => RetryAsWritten(s)
  }

  function Run(s: Session, events: seq<Event>): Session
    decreases |events|
  {
    if |events| == 0 then s else Run(Step(s, events[0]), events[1..])
  }

  /** Events that act on the current deck rather than dealing a new one. */
  predicate WithinRound(e: Event) {
    e.Click? || e.ResolveFires? || e.TickFires? || e.PreviewFires? || e.TryAgainPressed?
  }
}

=== FILE: invariant.dfy ===
/**
 * The invariant every reachable session keeps, and the properties the game
 * promises about runs of events: at most two unmatched cards face-up during
 * play, a matched card never changes again, the matched-pair counter and the
 * score never go down, the clock never goes negative, and the round-complete
 * modal is open exactly when every pair of the level is matched.
 */
module GameInvariant {
  import opened Common
  import opened Levels
  import opened Cards
  import opened Deck
  import opened Game

  /** The table right after a deal: everything face-up, nothing matched, nothing running. */
  predicate Dealt(s: Session) {
    && (forall i :: 0 <= i < |s.cards| ==> s.cards[i].isFlipped && !s.cards[i].isMatched)
    && s.matchedPairs == 0 && s.pending.None? && !s.gameStarted
    && !s.showRoundComplete && !s.showTimeUp && s.timeLeft == Time(s.level)
  }

  /**
   * During play: with no resolution waiting at most one unmatched card is
   * face-up; with one waiting, its two cards are the only face-up unmatched
   * cards, they are two different cards, their symbols are the ones the
   * click saw, and the level it captured is still the current one.
   */
  predicate PendingAgrees(s: Session) {
    match s.pending
    case None => CountFaceUp(s.cards) <= 1
    case Some(p) =>
      && p.level == s.level
      && 0 <= p.first.id < |s.cards| && 0 <= p.second.id < |s.cards|
      && p.first.id != p.second.id
      && FaceUpUnmatched(s.cards[p.first.id]) && FaceUpUnmatched(s.cards[p.second.id])
      && s.cards[p.first.id].emoji == p.first.emoji && s.cards[p.second.id].emoji == p.second.emoji
      && CountFaceUp(s.cards) == 2
  }

  predicate Inv(s: Session) {
    && IsDeckOf(s.cards, s.level)
    && 1 <= s.round <= RoundsPerLevel
    && s.score >= 0
    && 0 <= s.matchedPairs <= Pairs(s.level)
    && CountMatched(s.cards) == 2 * s.matchedPairs
    && 0 <= s.timeLeft <= Time(s.level)
    && (s.showRoundComplete <==> s.matchedPairs == Pairs(s.level))
    && (s.gameStarted ==> s.timeLeft > 0 && !s.showRoundComplete && !s.previewScheduled && !s.showGameComplete)
    && (s.showTimeUp ==> s.timeLeft == 0 && !s.gameStarted)
    && (s.previewScheduled ==> !s.showGameComplete)
    && (s.previewScheduled || s.showGameComplete ==> Dealt(s))
    && (!s.previewScheduled && !s.showGameComplete ==> PendingAgrees(s))
  }

  lemma SameFacesKeepDeck(a: seq<Card>, b: seq<Card>, level: Level)
    requires IsDeckOf(a, level) && SameFaces(a, b)
    ensures IsDeckOf(b, level)
  {
    SameFacesSameEmojis(a, b);
  }

  lemma DealtCounts(s: Session)
    requires Dealt(s)
    ensures CountMatched(s.cards) == 0
  {
    CountNone(s.cards, IsMatched);
  }

  // ---------------------------------------------------------------------------
  // Starting a game

  lemma NewGameInv(swaps: seq<(int, int)>)
    ensures Inv(NewGame(swaps))
  {
    DealtCounts(NewGame(swaps));
  }

  /** Try Again as written only stops play, which the invariant allows in every state. */
  lemma RetryAsWrittenInv(s: Session)
    requires Inv(s)
    ensures Inv(RetryAsWritten(s))
  {
  }

  /** The intended retry resumes from a session's own score, level and round, so it keeps the invariant. */
  lemma RetryInv(s: Session, swaps: seq<(int, int)>)
    requires Inv(s)
    ensures Inv(Retry(s, swaps))
  {
    DealtCounts(Retry(s, swaps));
  }

  /** Restart parameters describing a reachable session start a session satisfying the invariant. */
  lemma MountInv(p: RestartParams, swaps: seq<(int, int)>)
    requires 1 <= p.level <= 3 && 1 <= p.round <= RoundsPerLevel && p.score >= 0
    ensures Mount(Some(p), swaps).Ok? && Inv(Mount(Some(p), swaps).value)
  {
    DealtCounts(Mount(Some(p), swaps).value);
  }

  // ---------------------------------------------------------------------------
  // One lemma per event

  lemma PreviewEndInv(s: Session)
    requires Inv(s)
    ensures Inv(PreviewEnd(s))
  {
    if s.previewScheduled {
      var t := PreviewEnd(s);
      SameFacesKeepDeck(s.cards, t.cards, s.level);
      CountNone(t.cards, FaceUpUnmatched);
      CountNone(t.cards, IsMatched);
    }
  }

  lemma TickInv(s: Session)
    requires Inv(s)
    ensures Inv(Tick(s))
  {
  }

  /**
   * An accepted click turns exactly the clicked card face-up; no other card,
   * neither counter and no clock or modal changes; afterwards at most two
   * unmatched cards are face-up, and exactly two when a resolution was
   * scheduled.
   */
  lemma FlipAcceptedEffect(s: Session, id: int)
    requires Inv(s) && FlipAccepted(s, id)
    ensures 0 <= id < |s.cards|
    ensures Flip(s, id).cards == s.cards[id := s.cards[id].(isFlipped := true)]
    ensures Flip(s, id) != s
    ensures CountFaceUp(Flip(s, id).cards) == CountFaceUp(s.cards) + 1 <= 2
    ensures CountMatched(Flip(s, id).cards) == CountMatched(s.cards)
    ensures Flip(s, id).pending.Some? <==> CountFaceUp(Flip(s, id).cards) == 2
  {
    FindByIdAt(s.cards, id);
    FlipByIdAt(s.cards, id);
    var c := s.cards[id];
    CountUpdate(s.cards, id, c.(isFlipped := true), FaceUpUnmatched);
    CountUpdate(s.cards, id, c.(isFlipped := true), IsMatched);
    PairCandidatesShape(s.cards, id);
  }

  /** The click guard rejects exactly the clicks `Flip` ignores. */
  lemma FlipRejectedIff(s: Session, id: int)
    requires Inv(s)
    ensures Flip(s, id) == s <==> !FlipAccepted(s, id)
  {
    if FlipAccepted(s, id) {
      FlipAcceptedEffect(s, id);
    }
  }

  lemma FlipInv(s: Session, id: int)
    requires Inv(s)
    ensures Inv(Flip(s, id))
  {
    if FlipAccepted(s, id) {
      FlipAcceptedEffect(s, id);
      var t := Flip(s, id);
      SameFacesKeepDeck(s.cards, t.cards, s.level);
      if t.pending.Some? {
        assert s.pending.None?;
        PairCandidatesShape(s.cards, id);
        var p := t.pending.value;
        var collected := PairCandidates(s.cards, id);
        assert p.first == collected[0] && p.second == collected[1];
        assert p.first.id < p.second.id;
        assert FaceUpUnmatched(t.cards[p.first.id]);
        assert FaceUpUnmatched(t.cards[p.second.id]);
      }
    }
  }

  /** The resolution of a waiting pair, spelled out on the two cards. */
  lemma ResolveEffect(s: Session)
    requires Inv(s) && s.pending.Some?
    ensures var p := s.pending.value; var t := Resolve(s);
      var a := p.first.id; var b := p.second.id;
      && 0 <= a < |s.cards| && 0 <= b < |s.cards| && a != b
      && (s.cards[a].emoji == s.cards[b].emoji ==>
           && t.cards == s.cards[a := s.cards[a].(isMatched := true)][b := s.cards[b].(isMatched := true)]
           && t.matchedPairs == s.matchedPairs + 1
           && t.score == s.score + s.level * 100)
      && (s.cards[a].emoji != s.cards[b].emoji ==>
           && t.cards == s.cards[a := s.cards[a].(isFlipped := false)][b := s.cards[b].(isFlipped := false)]
           && t.matchedPairs == s.matchedPairs
           && t.score == s.score)
  {
    var p := s.pending.value;
    MatchIdsAt(s.cards, p.first.id, p.second.id);
    HideIdsAt(s.cards, p.first.id, p.second.id);
  }

  lemma ResolveInv(s: Session)
    requires Inv(s)
    ensures Inv(Resolve(s))
  {
    if s.pending.Some? {
      ResolveEffect(s);
      var p := s.pending.value;
      var a, b := p.first.id, p.second.id;
      var t := Resolve(s);
      SameFacesKeepDeck(s.cards, t.cards, s.level);
      if s.cards[a].emoji == s.cards[b].emoji {
        MatchPairCounts(s.cards, a, b);
      } else {
        HidePairCounts(s.cards, a, b);
      }
    }
  }

  lemma NextRoundInv(s: Session, swaps: seq<(int, int)>)
    requires Inv(s) && s.showRoundComplete
    ensures Inv(NextRound(s, swaps))
  {
    DealtCounts(NextRound(s, swaps));
  }

  lemma StepInv(s: Session, e: Event)
    requires Inv(s)
    ensures Inv(Step(s, e))
  {
    match e
    case Click(id) => FlipInv(s, id);
    case ResolveFires => ResolveInv(s);
    case TickFires => TickInv(s);
    case PreviewFires => PreviewEndInv(s);
    case NextRoundPressed(swaps) => if s.showRoundComplete { NextRoundInv(s, swaps); }
    case TryAgainPressed => RetryAsWrittenInv(s);
  }

  /** Every session reachable from a new game satisfies the invariant. */
  lemma {:induction false} RunInv(s: Session, events: seq<Event>)
    requires Inv(s)
    ensures Inv(Run(s, events))
    decreases |events|
  {
    if |events| > 0 {
      StepInv(s, events[0]);
      RunInv(Step(s, events[0]), events[1..]);
    }
  }
}

=== FILE: leaderboard.dfy ===
/**
 * The leaderboard update of `handleGameComplete` (src/pages/Game.tsx): the
 * finished game's entry is pushed onto the stored list, the list is sorted by
 * score, highest first, with the stable `Array.prototype.sort`, and only the
 * first five entries are kept. The player marker is cleared. The store is an
 * explicit record here; reading and writing it is left to the caller.
 */
module Leaderboard {
  import opened Common

  datatype Entry = Entry(name: string, score: int)

  /** The stored player name and leaderboard. */
  datatype Store = Store(currentPlayer: Option<string>, leaderboard: seq<Entry>)

  /** Number of entries kept: `slice(0, 5)`. */
  const TopCount: nat := 5

  predicate SortedDesc(xs: seq<Entry>) {
    forall i, j :: 0 <= i < j < |xs| ==> xs[i].score >= xs[j].score
  }

  /** The entries scoring exactly `k`, in their order. */
  function WithScore(xs: seq<Entry>, k: int): seq<Entry>
  {
    if |xs| == 0 then []
    else (if xs[0].score == k then [xs[0]] else []) + WithScore(xs[1..], k)
  }

  /**
   * Places `x` behind every entry scoring at least as much: where a stable
   * descending sort puts an element that comes after all of `ys`.
   */
  function InsertLast(ys: seq<Entry>, x: Entry): (r: seq<Entry>)
    ensures |r| == |ys| + 1
  {
    if |ys| == 0 then [x]
    else if ys[0].score >= x.score then [ys[0]] + InsertLast(ys[1..], x)
    else [x] + ys
  }

  lemma {:induction false} InsertLastPermutes(ys: seq<Entry>, x: Entry)
    ensures multiset(InsertLast(ys, x)) == multiset(ys) + multiset{x}
    decreases |ys|
  {
    if |ys| > 0 && ys[0].score >= x.score {
      InsertLastPermutes(ys[1..], x);
      assert ys == [ys[0]] + ys[1..];
    }
  }

  lemma PrependSorted(h: Entry, rest: seq<Entry>)
    requires SortedDesc(rest)
    requires forall z :: z in multiset(rest) ==> h.score >= z.score
    ensures SortedDesc([h] + rest)
  {
    var r := [h] + rest;
    forall i, j | 0 <= i < j < |r| ensures r[i].score >= r[j].score {
      assert r[j] == rest[j - 1];
      if i > 0 {
        assert r[i] == rest[i - 1];
      } else {
        assert rest[j - 1] in multiset(rest);
      }
    }
  }

  lemma {:induction false} InsertLastSorted(ys: seq<Entry>, x: Entry)
    requires SortedDesc(ys)
    ensures SortedDesc(InsertLast(ys, x))
    decreases |ys|
  {
    if |ys| > 0 {
      var tail := ys[1..];
      if ys[0].score >= x.score {
        assert SortedDesc(tail);
        InsertLastSorted(tail, x);
        var rest := InsertLast(tail, x);
        InsertLastPermutes(tail, x);
        forall z: Entry | z in multiset(rest) ensures ys[0].score >= z.score {
          if z in multiset(tail) {
            var i :| 0 <= i < |tail| && tail[i] == z;
            assert ys[i + 1] == z;
          }
        }
        PrependSorted(ys[0], rest);
      } else {
        forall z: Entry | z in multiset(ys) ensures x.score >= z.score {
          var i :| 0 <= i < |ys| && ys[i] == z;
        }
        PrependSorted(x, ys);
      }
    }
  }

  /** Stable sort by score, highest first (insertion sort). */
  function SortByScore(xs: seq<Entry>): (r: seq<Entry>)
    ensures |r| == |xs|
  {
    if |xs| == 0 then []
    else
      var n := |xs| - 1;
      InsertLast(SortByScore(xs[..n]), xs[n])
  }

  /** The sort orders by score, highest first. */
  lemma {:induction false} SortSorts(xs: seq<Entry>)
    ensures SortedDesc(SortByScore(xs))
    decreases |xs|
  {
    if |xs| > 0 {
      var n := |xs| - 1;
      SortByScoreLast(xs);
      SortSorts(xs[..n]);
      InsertLastSorted(SortByScore(xs[..n]), xs[n]);
    }
  }

  /** The sort only rearranges. */
  lemma {:induction false} SortPermutes(xs: seq<Entry>)
    ensures multiset(SortByScore(xs)) == multiset(xs)
    decreases |xs|
  {
    if |xs| > 0 {
      var n := |xs| - 1;
      var sorted := SortByScore(xs[..n]);
      SortPermutes(xs[..n]);
      InsertLastPermutes(sorted, xs[n]);
      PermutesStep(xs, sorted, InsertLast(sorted, xs[n]));
      SortByScoreLast(xs);
    }
  }

  /** The sort inserts the last entry into the sorted front. */
  lemma SortByScoreLast(xs: seq<Entry>)
    requires |xs| > 0
    ensures SortByScore(xs) == InsertLast(SortByScore(xs[..|xs| - 1]), xs[|xs| - 1])
  {
  }

  lemma PermutesStep(xs: seq<Entry>, sorted: seq<Entry>, r: seq<Entry>)
    requires |xs| > 0
    requires multiset(sorted) == multiset(xs[..|xs| - 1])
    requires multiset(r) == multiset(sorted) + multiset{xs[|xs| - 1]}
    ensures multiset(r) == multiset(xs)
  {
    assert xs == xs[..|xs| - 1] + [xs[|xs| - 1]];
  }

  /** The first five entries, or all of them when there are fewer. */
  function Top(xs: seq<Entry>): (r: seq<Entry>)
    ensures |r| == if |xs| < TopCount then |xs| else TopCount
    ensures forall i :: 0 <= i < |r| ==> r[i] == xs[i]
  {
    if |xs| <= TopCount then xs else xs[..TopCount]
  }

  /**
   * Push, sort, keep five. The result has `min(n + 1, 5)` entries, is
   * sorted highest first, and every entry in it came from the old board or
   * is the new one; on a board with room left the new entry is kept.
   */
  function AppendScore(board: seq<Entry>, e: Entry): (r: seq<Entry>)
    ensures |r| == if |board| + 1 < TopCount then |board| + 1 else TopCount
    ensures SortedDesc(r)
    ensures forall x :: x in r ==> x in board || x == e
    ensures |board| < TopCount ==> e in r
  {
    var all := SortByScore(board + [e]);
    SortSorts(board + [e]);
    SortPermutes(board + [e]);
    assert forall x :: x in all ==> x in multiset(board + [e]);
    assert e in multiset(board + [e]);
    Top(all)
  }

  /** `getItem('currentPlayer') || 'Anonymous'`: an absent or empty name falls back. */
  function PlayerName(store: Store): (r: string)
    ensures |r| > 0
    ensures store.currentPlayer.Some? && store.currentPlayer.value != "" ==> r == store.currentPlayer.value
  {
    if store.currentPlayer.Some? && store.currentPlayer.value != "" then store.currentPlayer.value
    else "Anonymous"
  }

  /**
   * `handleGameComplete`: the player's name, or "Anonymous" when none (or an
   * empty one) is stored, is entered with the final score through
   * `AppendScore`, and the player marker is removed.
   */
  function CompleteGame(store: Store, score: int): (r: Store)
    ensures r.currentPlayer.None?
    ensures r.leaderboard == AppendScore(store.leaderboard, Entry(PlayerName(store), score))
    ensures |r.leaderboard| == if |store.leaderboard| + 1 < TopCount then |store.leaderboard| + 1 else TopCount
    ensures SortedDesc(r.leaderboard)
    ensures store.currentPlayer.Some? && store.currentPlayer.value != "" ==>
      forall x :: x in r.leaderboard ==> x in store.leaderboard || x == Entry(store.currentPlayer.value, score)
    ensures (store.currentPlayer.None? || store.currentPlayer.value == "") ==>
      forall x :: x in r.leaderboard ==> x in store.leaderboard || x == Entry("Anonymous", score)
    ensures |store.leaderboard| < TopCount ==> Entry(PlayerName(store), score) in r.leaderboard
  {
    Store(None, AppendScore(store.leaderboard, Entry(PlayerName(store), score)))
  }

  // ---------------------------------------------------------------------------
  // Stability

  lemma {:induction false} WithScoreMember(xs: seq<Entry>, k: int, x: Entry)
    requires x in WithScore(xs, k)
    ensures x in xs && x.score == k
    decreases |xs|
  {
    if |xs| > 0 && !(xs[0].score == k && x == xs[0]) {
      WithScoreMember(xs[1..], k, x);
    }
  }

  lemma {:induction false} WithScoreAppend(a: seq<Entry>, b: seq<Entry>, k: int)
    ensures WithScore(a + b, k) == WithScore(a, k) + WithScore(b, k)
    decreases |a|
  {
    if |a| == 0 {
      assert a + b == b;
    } else {
      var head := if a[0].score == k then [a[0]] else [];
      assert (a + b)[0] == a[0];
      assert (a + b)[1..] == a[1..] + b;
      assert WithScore(a + b, k) == head + WithScore(a[1..] + b, k);
      WithScoreAppend(a[1..], b, k);
      assert WithScore(a, k) == head + WithScore(a[1..], k);
    }
  }

  lemma {:induction false} WithScoreNone(xs: seq<Entry>, k: int)
    requires forall i :: 0 <= i < |xs| ==> xs[i].score != k
    ensures WithScore(xs, k) == []
    decreases |xs|
  {
    if |xs| > 0 {
      WithScoreNone(xs[1..], k);
    }
  }

  /** One step of the filter. */
  lemma WithScoreCons(xs: seq<Entry>, k: int)
    requires |xs| > 0
    ensures WithScore(xs, k) == (if xs[0].score == k then [xs[0]] else []) + WithScore(xs[1..], k)
  {
  }

  /** Inserting behind the equal scores appends `x` to its own score class only. */
  lemma {:induction false} InsertLastStable(ys: seq<Entry>, x: Entry, k: int)
    requires SortedDesc(ys)
    ensures WithScore(InsertLast(ys, x), k) == WithScore(ys, k) + (if x.score == k then [x] else [])
    decreases |ys|
  {
    if |ys| == 0 {
      WithScoreCons([x], k);
      assert [x][1..] == [];
    } else if ys[0].score >= x.score {
      assert SortedDesc(ys[1..]);
      InsertLastStable(ys[1..], x, k);
      StableBehind(ys, x, k);
    } else {
      StableInFront(ys, x, k);
    }
  }

  lemma StableBehind(ys: seq<Entry>, x: Entry, k: int)
    requires |ys| > 0 && ys[0].score >= x.score
    requires WithScore(InsertLast(ys[1..], x), k) == WithScore(ys[1..], k) + (if x.score == k then [x] else [])
    ensures WithScore(InsertLast(ys, x), k) == WithScore(ys, k) + (if x.score == k then [x] else [])
  {
    var r := InsertLast(ys, x);
    assert r[0] == ys[0] && r[1..] == InsertLast(ys[1..], x);
    WithScoreCons(r, k);
    WithScoreCons(ys, k);
  }

  lemma StableInFront(ys: seq<Entry>, x: Entry, k: int)
    requires SortedDesc(ys) && |ys| > 0 && ys[0].score < x.score
    ensures WithScore(InsertLast(ys, x), k) == WithScore(ys, k) + (if x.score == k then [x] else [])
  {
    var r := InsertLast(ys, x);
    assert r[0] == x && r[1..] == ys;
    WithScoreCons(r, k);
    if x.score == k {
      AboveTheBoard(ys, k);
    }
  }

  /** A sorted board has no entry with a score above its first. */
  lemma AboveTheBoard(ys: seq<Entry>, k: int)
    requires SortedDesc(ys) && |ys| > 0 && k > ys[0].score
    ensures WithScore(ys, k) == []
  {
    forall i | 0 <= i < |ys| ensures ys[i].score != k {
      assert ys[0].score >= ys[i].score;
    }
    WithScoreNone(ys, k);
  }

  /** The sort keeps, for every score, the entries with that score in their original order. */
  lemma {:induction false} SortIsStable(xs: seq<Entry>, k: int)
    ensures WithScore(SortByScore(xs), k) == WithScore(xs, k)
    decreases |xs|
  {
    if |xs| > 0 {
      var n := |xs| - 1;
      var pre, last := xs[..n], xs[n];
      var sorted := SortByScore(pre);
      SortByScoreLast(xs);
      SortSorts(pre);
      SortIsStable(pre, k);
      InsertLastStable(sorted, last, k);
      assert xs == pre + [last];
      WithScoreAppend(pre, [last], k);
      WithScoreCons([last], k);
      assert [last][1..] == [];
    }
  }

  /**
   * A descending order is fixed by its score classes: two sorted sequences
   * with the same entries of every score, in the same order, are equal. So
   * any stable descending sort yields exactly `SortByScore`.
   */
  lemma {:induction false} StableSortIsUnique(a: seq<Entry>, b: seq<Entry>)
    requires SortedDesc(a) && SortedDesc(b)
    requires forall k :: WithScore(a, k) == WithScore(b, k)
    ensures a == b
    decreases |a| + |b|
  {
    if |a| > 0 { HeadScoreClass(a); }
    if |b| > 0 { HeadScoreClass(b); }
    if |a| > 0 && |b| > 0 {
      SameHead(a, b);
      SameTailClasses(a, b);
      assert SortedDesc(a[1..]) && SortedDesc(b[1..]);
      StableSortIsUnique(a[1..], b[1..]);
      assert a == [a[0]] + a[1..];
      assert b == [b[0]] + b[1..];
    }
  }

  /** Two sorted sequences with the same score classes start with the same entry. */
  lemma SameHead(a: seq<Entry>, b: seq<Entry>)
    requires |a| > 0 && |b| > 0
    requires SortedDesc(a) && SortedDesc(b)
    requires forall k :: WithScore(a, k) == WithScore(b, k)
    ensures a[0] == b[0]
  {
    var m, n := a[0].score, b[0].score;
    WithScoreCons(a, m);
    WithScoreCons(b, n);
    // the head of each side occurs in the other, so neither head outscores the other
    WithScoreMember(b, m, a[0]);
    WithScoreMember(a, n, b[0]);
    SortedHeadIsMax(b, a[0]);
    SortedHeadIsMax(a, b[0]);
    assert m == n;
    assert a[0] == WithScore(a, m)[0] == WithScore(b, m)[0] == b[0];
  }

  lemma SortedHeadIsMax(xs: seq<Entry>, x: Entry)
    requires SortedDesc(xs) && x in xs
    ensures xs[0].score >= x.score
  {
    var i :| 0 <= i < |xs| && xs[i] == x;
  }

  /** Dropping a common head keeps the score classes equal. */
  lemma SameTailClasses(a: seq<Entry>, b: seq<Entry>)
    requires |a| > 0 && |b| > 0 && a[0] == b[0]
    requires forall k :: WithScore(a, k) == WithScore(b, k)
    ensures forall k :: WithScore(a[1..], k) == WithScore(b[1..], k)
  {
    forall k ensures WithScore(a[1..], k) == WithScore(b[1..], k) {
      WithScoreCons(a, k);
      WithScoreCons(b, k);
      var ha := if a[0].score == k then [a[0]] else [];
      assert ha + WithScore(a[1..], k) == ha + WithScore(b[1..], k);
      assert WithScore(a[1..], k) == (ha + WithScore(a[1..], k))[|ha|..];
      assert WithScore(b[1..], k) == (ha + WithScore(b[1..], k))[|ha|..];
    }
  }

  lemma HeadScoreClass(xs: seq<Entry>)
    requires |xs| > 0
    ensures WithScore(xs, xs[0].score) != []
  {
    WithScoreCons(xs, xs[0].score);
  }

  /** Sorting a list that is already sorted changes nothing. */
  lemma SortSortedIsIdentity(xs: seq<Entry>)
    requires SortedDesc(xs)
    ensures SortByScore(xs) == xs
  {
    forall k ensures WithScore(SortByScore(xs), k) == WithScore(xs, k) {
      SortIsStable(xs, k);
    }
    SortSorts(xs);
    StableSortIsUnique(SortByScore(xs), xs);
  }

  /**
   * On a board that is already sorted, the new entry goes in behind every
   * entry scoring at least as much, the old entries keep their order, and
   * the tail beyond five is dropped.
   */
  lemma AppendToSortedBoard(board: seq<Entry>, e: Entry) returns (k: nat)
    requires SortedDesc(board)
    ensures k <= |board|
    ensures forall i :: 0 <= i < k ==> board[i].score >= e.score
    ensures forall i :: k <= i < |board| ==> board[i].score < e.score
    ensures AppendScore(board, e) == Top(board[..k] + [e] + board[k..])
  {
    var all := board + [e];
    assert all[..|board|] == board;
    SortSortedIsIdentity(board);
    assert SortByScore(all) == InsertLast(board, e);
    k := InsertLastSplit(board, e);
  }

  lemma {:induction false} InsertLastSplit(ys: seq<Entry>, x: Entry) returns (k: nat)
    requires SortedDesc(ys)
    ensures k <= |ys|
    ensures forall i :: 0 <= i < k ==> ys[i].score >= x.score
    ensures forall i :: k <= i < |ys| ==> ys[i].score < x.score
    ensures InsertLast(ys, x) == ys[..k] + [x] + ys[k..]
    decreases |ys|
  {
    if |ys| == 0 {
      k := 0;
    } else if ys[0].score >= x.score {
      var tail := ys[1..];
      assert SortedDesc(tail);
      var k' := InsertLastSplit(tail, x);
      k := k' + 1;
      assert InsertLast(ys, x) == [ys[0]] + InsertLast(tail, x);
      SplitCons(ys, k');
      forall i | k <= i < |ys| ensures ys[i].score < x.score {
        assert ys[i] == tail[i - 1];
      }
      forall i | 0 <= i < k ensures ys[i].score >= x.score {
        if i > 0 { assert ys[i] == tail[i - 1]; }
      }
    } else {
      k := 0;
    }
  }

  /** Splitting behind a head element. */
  lemma SplitCons(ys: seq<Entry>, k: nat)
    requires k < |ys|
    ensures forall x: Entry :: [ys[0]] + (ys[1..][..k] + [x] + ys[1..][k..]) == ys[..k + 1] + [x] + ys[k + 1..]
  {
    forall x: Entry ensures [ys[0]] + (ys[1..][..k] + [x] + ys[1..][k..]) == ys[..k + 1] + [x] + ys[k + 1..] {
      assert ys[..k + 1] == [ys[0]] + ys[1..][..k];
      assert ys[k + 1..] == ys[1..][k..];
    }
  }

  /**
   * A full board of 500, 400, 300, 200 and 100 points: a new score of 350
   * goes in third and the 100 drops off.
   */
  lemma FullBoardExample(a: string, b: string, c: string, d: string, e: string, x: string)
    ensures var board := [Entry(a, 500), Entry(b, 400), Entry(c, 300), Entry(d, 200), Entry(e, 100)];
      AppendScore(board, Entry(x, 350))
        == [Entry(a, 500), Entry(b, 400), Entry(x, 350), Entry(c, 300), Entry(d, 200)]
  {
    var board := [Entry(a, 500), Entry(b, 400), Entry(c, 300), Entry(d, 200), Entry(e, 100)];
    var k := AppendToSortedBoard(board, Entry(x, 350));
    assert board[1].score >= 350 && board[2].score < 350;
    assert k == 2;
    assert board[..2] + [Entry(x, 350)] + board[2..]
        == [Entry(a, 500), Entry(b, 400), Entry(x, 350), Entry(c, 300), Entry(d, 200), Entry(e, 100)];
  }
}

=== FILE: levels.dfy ===
/**
 * The level catalogue and the symbol pool of src/pages/Game.tsx.
 * Three levels are configured; each one fixes the grid shape, the number of
 * pairs dealt and the seconds a round lasts.
 */
module Levels {
  import opened Common

  /** A configured level number. */
  type Level = l: int | 1 <= l <= 3 witness 1

  datatype LevelConfig = LevelConfig(rows: nat, cols: nat, time: nat, pairs: nat)

  /** The number of levels and of rounds per level that the game plays. */
  const MaxLevel: Level := 3
  const RoundsPerLevel: int := 3

  /** The symbol pool; a level with `pairs` pairs deals its first `pairs` symbols. */
  const EMOJIS: seq<string> := [
    "\U{1F338}", "\U{1F375}", "\U{1F3FA}", "\U{1F458}", "\U{1F420}", "\U{1F371}",
    "\U{1F35C}", "\U{1F359}", "\U{26F0}\U{FE0F}", "\U{1F3EF}", "\U{1F38C}", "\U{1F98A}",
    "\U{1F430}", "\U{1F9A2}", "\U{1F426}", "\U{1F98B}", "\U{1F33A}", "\U{1F337}",
    "\U{1F308}", "\U{2601}\U{FE0F}", "\U{1F319}", "\U{2B50}", "\U{1F30A}", "\U{1F4AE}"
  ]

  function Config(level: Level): (r: LevelConfig)
    ensures r.rows * r.cols == 2 * r.pairs
    ensures 0 < r.pairs <= |EMOJIS| && r.time > 0
  {
    match level
    case 1 => LevelConfig(2, 3, 30, 3)
    case 2 => LevelConfig(3, 4, 45, 6)
    case 3 => LevelConfig(4, 5, 60, 10)
  }

  /** Looking a level up: only 1, 2 and 3 are in the table. */
  function ConfigFor(level: int): (r: Result<LevelConfig, GameError>)
    ensures r.Ok? <==> 1 <= level <= 3
    ensures r.Ok? ==> 1 <= level <= 3 && r.value == Config(level)
    ensures r.Ok? ==> r.value.pairs > 0 && r.value.time > 0
    ensures r.Err? ==> r.error == InvalidLevel(level)
  {
    if 1 <= level <= 3 then Ok(Config(level)) else Err(InvalidLevel(level))
  }

  function Pairs(level: Level): nat { Config(level).pairs }

  function Time(level: Level): nat { Config(level).time }

  /** No symbol occurs twice in the pool. */
  predicate Distinct<T(==)>(s: seq<T>) {
    forall i, j :: 0 <= i < j < |s| ==> s[i] != s[j]
  }

  /**
   * Every configured level is well formed: its grid holds exactly its pairs,
   * it asks for at least one pair and a positive round time, and the pool
   * has enough distinct symbols for it.
   */
  lemma LevelTableConsistent(level: Level)
    ensures Config(level).rows * Config(level).cols == 2 * Pairs(level)
    ensures 0 < Pairs(level) <= |EMOJIS|
    ensures Time(level) > 0
  {
  }

  /** The pool's symbols are pairwise different, so a level's symbols are too. */
  lemma EmojisDistinct()
    ensures Distinct(EMOJIS)
  {
    forall i, j | 0 <= i < j < |EMOJIS| ensures EMOJIS[i] != EMOJIS[j] {
      if j < 12 {
        FirstHalfDistinct(i, j);
      } else if 12 <= i {
        SecondHalfDistinct(i, j);
      } else {
        HalvesDisjoint(i, j);
      }
    }
  }

  /** Pairwise comparison of the pool, split in halves to keep each check small. */
  lemma FirstHalfDistinct(i: int, j: int)
    requires 0 <= i < j < 12
    ensures EMOJIS[i] != EMOJIS[j]
  {
  }

  lemma SecondHalfDistinct(i: int, j: int)
    requires 12 <= i < j < 24
    ensures EMOJIS[i] != EMOJIS[j]
  {
  }

  lemma HalvesDisjoint(i: int, j: int)
    requires 0 <= i < 12 <= j < 24
    ensures EMOJIS[i] != EMOJIS[j]
  {
  }

  /** Harder levels deal strictly more pairs and allow strictly more time. */
  lemma LevelsGrow(a: Level, b: Level)
    requires a < b
    ensures Pairs(a) < Pairs(b) && Time(a) < Time(b)
  {
  }
}

=== FILE: properties.dfy ===
/**
 * Properties of single events and of whole runs that follow from the
 * session invariant.
 */
module GameProperties {
  import opened Common
  import opened Levels
  import opened Cards
  import opened Deck
  import opened Game
  import opened GameInvariant

  /** No event lowers the score: a mismatch, a time-up, a retry and a new round all keep it. */
  lemma StepKeepsScore(s: Session, e: Event)
    ensures Step(s, e).score >= s.score
    ensures !e.ResolveFires? ==> Step(s, e).score == s.score
  {
  }

  lemma {:induction false} RunKeepsScore(s: Session, events: seq<Event>)
    ensures Run(s, events).score >= s.score
    decreases |events|
  {
    if |events| > 0 {
      StepKeepsScore(s, events[0]);
      RunKeepsScore(Step(s, events[0]), events[1..]);
    }
  }

  /**
   * Within a round a matched card never changes again and the matched-pair
   * counter never goes down.
   */
  lemma StepKeepsMatched(s: Session, e: Event)
    requires Inv(s) && WithinRound(e)
    ensures |Step(s, e).cards| == |s.cards|
    ensures forall i :: 0 <= i < |s.cards| && s.cards[i].isMatched ==> Step(s, e).cards[i] == s.cards[i]
    ensures Step(s, e).matchedPairs >= s.matchedPairs
  {
    match e
    case Click(id) =>
      if FlipAccepted(s, id) { FlipAcceptedEffect(s, id); }
    case ResolveFires =>
      if s.pending.Some? { ResolveEffect(s); }
    case TickFires =>
    case PreviewFires =>
    case TryAgainPressed =>
  }

  /** The same over a whole run of events that deal no new deck. */
  lemma {:induction false} RunKeepsMatched(s: Session, events: seq<Event>)
    requires Inv(s)
    requires forall k :: 0 <= k < |events| ==> WithinRound(events[k])
    ensures |Run(s, events).cards| == |s.cards|
    ensures forall i :: 0 <= i < |s.cards| && s.cards[i].isMatched ==> Run(s, events).cards[i] == s.cards[i]
    ensures Run(s, events).matchedPairs >= s.matchedPairs
    decreases |events|
  {
    if |events| > 0 {
      StepKeepsMatched(s, events[0]);
      StepInv(s, events[0]);
      RunKeepsMatched(Step(s, events[0]), events[1..]);
    }
  }

  /**
   * The round-complete modal is open, and play is stopped, exactly when the
   * matched-pair counter reaches the level's pair count, which is exactly
   * when every card on the table is matched.
   */
  lemma RoundCompleteIff(s: Session)
    requires Inv(s)
    ensures s.showRoundComplete <==> s.matchedPairs == Pairs(s.level)
    ensures s.showRoundComplete <==> forall i :: 0 <= i < |s.cards| ==> s.cards[i].isMatched
    ensures s.showRoundComplete ==> !s.gameStarted
  {
    if forall i :: 0 <= i < |s.cards| ==> s.cards[i].isMatched {
      CountAll(s.cards, IsMatched);
    }
    if s.matchedPairs == Pairs(s.level) {
      CountFullMeansAll(s.cards, IsMatched);
    }
  }

  /** While play is on at most two unmatched cards are face-up. */
  lemma AtMostTwoFaceUp(s: Session)
    requires Inv(s) && s.gameStarted
    ensures CountFaceUp(s.cards) <= 2
  {
  }

  /** Once the time-up modal is shown every click is ignored. */
  lemma NoFlipAfterTimeUp(s: Session, id: int)
    requires Inv(s) && s.showTimeUp
    ensures Flip(s, id) == s
  {
  }

  /**
   * A click that is taken while another card waits face-up schedules a
   * resolution that compares exactly those two cards.
   */
  lemma SecondFlipPairsUp(s: Session, id: int)
    requires Inv(s) && FlipAccepted(s, id) && CountFaceUp(s.cards) == 1
    ensures Flip(s, id).pending.Some?
    ensures var p := Flip(s, id).pending.value;
      (p.first.id == id || p.second.id == id) && p.first.id != p.second.id
      && FaceUpUnmatched(s.cards[p.first.id] ) != FaceUpUnmatched(s.cards[p.second.id])
  {
    FlipAcceptedEffect(s, id);
    PairCandidatesShape(s.cards, id);
    FindByIdAt(s.cards, id);
    var p := Flip(s, id).pending.value;
    var collected := PairCandidates(s.cards, id);
    assert p.first == collected[0] && p.second == collected[1];
    assert collected[0] in collected && collected[1] in collected;
    if p.first.id != id && p.second.id != id {
      assert FaceUpUnmatched(s.cards[p.first.id]) && FaceUpUnmatched(s.cards[p.second.id]);
      CountTwo(s.cards, p.first.id, p.second.id);
      assert false;
    }
  }

  /** Two distinct cards satisfying `p` give a count of at least two. */
  lemma CountTwo(cards: seq<Card>, a: int, b: int)
    requires 0 <= a < |cards| && 0 <= b < |cards| && a != b
    requires FaceUpUnmatched(cards[a]) && FaceUpUnmatched(cards[b])
    ensures CountFaceUp(cards) >= 2
  {
    var x := cards[a].(isFlipped := false);
    CountUpdate(cards, a, x, FaceUpUnmatched);
    CountUpdate(cards[a := x], b, x, FaceUpUnmatched);
  }

  /**
   * Two clicks on two face-down cards with nothing else face-up schedule the
   * resolution of exactly those two cards.
   */
  lemma TwoClicksPairUp(s: Session, a: int, b: int)
    requires Inv(s) && s.gameStarted && CountFaceUp(s.cards) == 0
    requires 0 <= a < |s.cards| && 0 <= b < |s.cards| && a != b
    requires !s.cards[a].isFlipped && !s.cards[a].isMatched
    requires !s.cards[b].isFlipped && !s.cards[b].isMatched
    ensures var t := Flip(Flip(s, a), b);
      && t.pending.Some?
      && {t.pending.value.first.id, t.pending.value.second.id} == {a, b}
      && t.cards == s.cards[a := s.cards[a].(isFlipped := true)][b := s.cards[b].(isFlipped := true)]
      && Inv(t)
  {
    FirstClick(s, a);
    SecondClick(Flip(s, a), a, b);
  }

  /** The first of two clicks turns its card up and schedules nothing. */
  lemma FirstClick(s: Session, a: int)
    requires Inv(s) && s.gameStarted && CountFaceUp(s.cards) == 0
    requires 0 <= a < |s.cards| && !s.cards[a].isFlipped && !s.cards[a].isMatched
    ensures var s1 := Flip(s, a);
      && Inv(s1) && s1.gameStarted && s1.pending.None? && CountFaceUp(s1.cards) == 1
      && s1.cards == s.cards[a := s.cards[a].(isFlipped := true)]
  {
    FindByIdAt(s.cards, a);
    FlipAcceptedEffect(s, a);
    FlipInv(s, a);
  }

  /** The second click, on another face-down card, pairs it with the first. */
  lemma SecondClick(s1: Session, a: int, b: int)
    requires Inv(s1) && s1.gameStarted && s1.pending.None? && CountFaceUp(s1.cards) == 1
    requires 0 <= a < |s1.cards| && FaceUpUnmatched(s1.cards[a])
    requires 0 <= b < |s1.cards| && b != a && !s1.cards[b].isFlipped && !s1.cards[b].isMatched
    ensures var t := Flip(s1, b);
      && t.pending.Some?
      && {t.pending.value.first.id, t.pending.value.second.id} == {a, b}
      && t.cards == s1.cards[b := s1.cards[b].(isFlipped := true)]
      && Inv(t)
  {
    FindByIdAt(s1.cards, b);
    FlipAcceptedEffect(s1, b);
    FlipInv(s1, b);
    SecondFlipPairsUp(s1, b);
    var p := Flip(s1, b).pending.value;
    var other := if p.first.id == b then p.second.id else p.first.id;
    if other != a {
      CountTwo(s1.cards, a, other);
      assert false;
    }
  }

  /**
   * The resolution of a waiting pair, stated by the pair's two positions in
   * either order.
   */
  lemma ResolvePairAt(u: Session, a: int, b: int)
    requires Inv(u) && u.pending.Some?
    requires {u.pending.value.first.id, u.pending.value.second.id} == {a, b}
    ensures 0 <= a < |u.cards| && 0 <= b < |u.cards| && a != b
    ensures u.cards[a].emoji == u.cards[b].emoji ==>
      && Resolve(u).cards == u.cards[a := u.cards[a].(isMatched := true)][b := u.cards[b].(isMatched := true)]
      && Resolve(u).matchedPairs == u.matchedPairs + 1
      && Resolve(u).score == u.score + 100 * u.level
    ensures u.cards[a].emoji != u.cards[b].emoji ==>
      && Resolve(u).cards == u.cards[a := u.cards[a].(isFlipped := false)][b := u.cards[b].(isFlipped := false)]
      && Resolve(u).matchedPairs == u.matchedPairs
      && Resolve(u).score == u.score
    ensures Resolve(u).pending.None?
  {
    ResolveEffect(u);
    var x, y := u.pending.value.first.id, u.pending.value.second.id;
    assert x in {a, b} && y in {a, b} && a in {x, y} && b in {x, y};
    if x == b {
      var cs := u.cards;
      UpdatesCommute(cs, a, b, cs[a].(isMatched := true), cs[b].(isMatched := true));
      UpdatesCommute(cs, a, b, cs[a].(isFlipped := false), cs[b].(isFlipped := false));
    }
  }

  lemma UpdatesCommute(cs: seq<Card>, a: int, b: int, ca: Card, cb: Card)
    requires 0 <= a < |cs| && 0 <= b < |cs| && a != b
    ensures cs[b := cb][a := ca] == cs[a := ca][b := cb]
  {
  }

  /** Turning two cards up and then matching them, as one update. */
  lemma MatchedPairShape(cs: seq<Card>, us: seq<Card>, rs: seq<Card>, a: int, b: int)
    requires 0 <= a < |cs| && 0 <= b < |cs| && a != b
    requires us == cs[a := cs[a].(isFlipped := true)][b := cs[b].(isFlipped := true)]
    requires rs == us[a := us[a].(isMatched := true)][b := us[b].(isMatched := true)]
    ensures rs == cs[a := cs[a].(isFlipped := true, isMatched := true)]
                    [b := cs[b].(isFlipped := true, isMatched := true)]
  {
  }

  /** Turning two face-down cards up and then down again restores the table. */
  lemma HiddenPairShape(cs: seq<Card>, us: seq<Card>, rs: seq<Card>, a: int, b: int)
    requires 0 <= a < |cs| && 0 <= b < |cs| && a != b
    requires !cs[a].isFlipped && !cs[b].isFlipped
    requires us == cs[a := cs[a].(isFlipped := true)][b := cs[b].(isFlipped := true)]
    requires rs == us[a := us[a].(isFlipped := false)][b := us[b].(isFlipped := false)]
    ensures rs == cs
  {
  }

  /**
   * Turning up two cards with the same symbol and letting the resolution
   * fire marks both matched, counts one more pair and adds 100 points per
   * level; nothing else on the table changes.
   */
  lemma MatchingPairScenario(s: Session, a: int, b: int)
    requires Inv(s) && s.gameStarted && CountFaceUp(s.cards) == 0
    requires 0 <= a < |s.cards| && 0 <= b < |s.cards| && a != b
    requires !s.cards[a].isFlipped && !s.cards[a].isMatched
    requires !s.cards[b].isFlipped && !s.cards[b].isMatched
    requires s.cards[a].emoji == s.cards[b].emoji
    ensures var t := Resolve(Flip(Flip(s, a), b));
      && t.cards == s.cards[a := s.cards[a].(isFlipped := true, isMatched := true)]
                           [b := s.cards[b].(isFlipped := true, isMatched := true)]
      && t.matchedPairs == s.matchedPairs + 1
      && t.score == s.score + 100 * s.level
      && t.pending.None?
  {
    TwoClicksPairUp(s, a, b);
    var u := Flip(Flip(s, a), b);
    ResolvePairAt(u, a, b);
    MatchedPairShape(s.cards, u.cards, Resolve(u).cards, a, b);
  }

  /**
   * Turning up two cards with different symbols and letting the resolution
   * fire turns both face-down again; the table, the score and the pair count
   * are as before the two clicks.
   */
  lemma MismatchScenario(s: Session, a: int, b: int)
    requires Inv(s) && s.gameStarted && CountFaceUp(s.cards) == 0
    requires 0 <= a < |s.cards| && 0 <= b < |s.cards| && a != b
    requires !s.cards[a].isFlipped && !s.cards[a].isMatched
    requires !s.cards[b].isFlipped && !s.cards[b].isMatched
    requires s.cards[a].emoji != s.cards[b].emoji
    ensures var t := Resolve(Flip(Flip(s, a), b));
      && t.cards == s.cards
      && t.matchedPairs == s.matchedPairs
      && t.score == s.score
      && t.pending.None?
  {
    TwoClicksPairUp(s, a, b);
    var u := Flip(Flip(s, a), b);
    ResolvePairAt(u, a, b);
    HiddenPairShape(s.cards, u.cards, Resolve(u).cards, a, b);
  }

  // ---------------------------------------------------------------------------
  // Try Again

  /**
   * Try Again as written, pressed in the time-up modal: the modal stays
   * open, the clock stays at zero, the table is unchanged, and no click,
   * tick or preview can start play again.
   */
  lemma TryAgainLeavesTimeUp(s: Session)
    requires Inv(s) && s.showTimeUp
    ensures var t := RetryAsWritten(s);
      && t.showTimeUp && t.timeLeft == 0 && !t.gameStarted && !t.previewScheduled
      && t.cards == s.cards
      && (forall id :: Flip(t, id) == t)
      && Tick(t) == t && PreviewEnd(t) == t
  {
  }

  /**
   * The footer's Restart as written, pressed during play: play stops with
   * time still on the clock and no preview to restart it, so clicks, ticks
   * and the preview event all leave the session alone.
   */
  lemma RestartFreezesPlay(s: Session)
    requires Inv(s) && s.gameStarted
    ensures var t := RetryAsWritten(s);
      && !t.gameStarted && t.timeLeft == s.timeLeft > 0 && !t.previewScheduled
      && t.cards == s.cards
      && (forall id :: Flip(t, id) == t)
      && Tick(t) == t && PreviewEnd(t) == t
  {
  }

  /**
   * The one way out of a frozen session: a resolution scheduled before the
   * Restart still fires, and when it matches the round's last pair the
   * round-complete modal opens, so Next Round can start play again.
   */
  lemma RestartThenLastMatchCompletesRound(s: Session)
    requires Inv(s) && s.gameStarted && s.pending.Some?
    requires s.pending.value.first.emoji == s.pending.value.second.emoji
    requires s.matchedPairs + 1 == Pairs(s.level)
    ensures var t := Resolve(RetryAsWritten(s));
      t.showRoundComplete && !t.gameStarted && t.matchedPairs == Pairs(s.level)
  {
  }

  /**
   * The intended Try Again restarts the round: once the new deck's preview
   * ends, play is on with the level's full time, the score, level and round
   * are kept, no pair is matched, every card is face-down, and the first
   * card can be clicked.
   */
  lemma RetryRestartsRound(s: Session, swaps: seq<(int, int)>)
    ensures var t := PreviewEnd(Retry(s, swaps));
      && t.gameStarted && !t.showTimeUp && t.timeLeft == Time(s.level) > 0
      && t.score == s.score && t.level == s.level && t.round == s.round
      && t.matchedPairs == 0
      && (forall i :: 0 <= i < |t.cards| ==> !t.cards[i].isFlipped && !t.cards[i].isMatched)
      && FlipAccepted(t, 0)
  {
    var t := PreviewEnd(Retry(s, swaps));
    CountNone(t.cards, FaceUpUnmatched);
    FindByIdAt(t.cards, 0);
  }

  // ---------------------------------------------------------------------------
  // Progression

  /** Position of the current round in the whole game, 1 .. 9. */
  function RoundIndex(s: Session): int {
    (s.level - 1) * RoundsPerLevel + s.round
  }

  /**
   * Next Round moves on to the following round of the game, one at a time,
   * until the ninth; there it opens the game-complete modal and stays on
   * level 3, round 3.
   */
  lemma NextRoundAdvances(s: Session, swaps: seq<(int, int)>)
    requires 1 <= s.round <= RoundsPerLevel
    ensures 1 <= RoundIndex(s) <= MaxLevel * RoundsPerLevel
    ensures RoundIndex(s) < MaxLevel * RoundsPerLevel ==>
      RoundIndex(NextRound(s, swaps)) == RoundIndex(s) + 1
      && NextRound(s, swaps).showGameComplete == s.showGameComplete
    ensures RoundIndex(s) == MaxLevel * RoundsPerLevel ==>
      NextRound(s, swaps).showGameComplete && RoundIndex(NextRound(s, swaps)) == RoundIndex(s)
  {
  }
}

=== FILE: timefmt.dfy ===
/**
 * `formatTime` of src/pages/Game.tsx: a number of seconds shown as
 * minutes and seconds, `MM:SS`, each field written in decimal and padded on
 * the left with '0' to at least two characters. `ParseTime` reads the same
 * shape back and serves as its inverse.
 */
module TimeFormat {
  import opened Common

  predicate IsDigit(c: char) { '0' <= c <= '9' }

  predicate AllDigits(s: string) {
    forall i :: 0 <= i < |s| ==> IsDigit(s[i])
  }

  function DigitChar(d: int): (c: char)
    requires 0 <= d < 10
    ensures IsDigit(c)
  {
    ('0' as int + d) as char
  }

  function DigitValue(c: char): (d: int)
    requires IsDigit(c)
    ensures 0 <= d < 10
  {
    c as int - '0' as int
  }

  /** `String(n)` for a non-negative integer: decimal without leading zeros. */
  function ShowNat(n: nat): (r: string)
    ensures |r| >= 1 && AllDigits(r)
    ensures n >= 10 ==> r[0] != '0'
    ensures n < 10 <==> |r| == 1
  {
    if n < 10 then [DigitChar(n)] else ShowNat(n / 10) + [DigitChar(n % 10)]
  }

  /** The number a string of decimal digits denotes. */
  function ValueOf(s: string): nat
    requires AllDigits(s)
  {
    if |s| == 0 then 0 else ValueOf(s[..|s| - 1]) * 10 + DigitValue(s[|s| - 1])
  }

  /** `padStart(2, '0')`: strings shorter than two get '0's in front. */
  function PadStart2(s: string): (r: string)
    ensures |r| == if |s| >= 2 then |s| else 2
    ensures |s| >= 2 ==> r == s
    ensures r[|r| - |s|..] == s
    ensures forall i :: 0 <= i < |r| - |s| ==> r[i] == '0'
  {
    if |s| >= 2 then s else if |s| == 1 then "0" + s else "00"
  }

  /**
   * `formatTime`: at least five characters, a ':' third from the end, and
   * decimal digits everywhere else.
   */
  function FormatTime(seconds: nat): (r: string)
    ensures |r| >= 5 && r[|r| - 3] == ':'
    ensures forall i :: 0 <= i < |r| && i != |r| - 3 ==> IsDigit(r[i])
  {
    PadStart2(ShowNat(seconds / 60)) + ":" + PadStart2(ShowNat(seconds % 60))
  }

  /** Position of the first ':' in `s`. */
  function ColonIndex(s: string): (r: Option<nat>)
    ensures r.Some? ==> r.value < |s| && s[r.value] == ':'
                        && forall i :: 0 <= i < r.value ==> s[i] != ':'
    ensures r.None? ==> forall i :: 0 <= i < |s| ==> s[i] != ':'
  {
    if |s| == 0 then None
    else if s[0] == ':' then Some(0)
    else match ColonIndex(s[1..])
      case None => None
      case Some(i) => Some(i + 1)
  }

  /**
   * Reads `MM:SS` back: at least two minute digits, exactly two second
   * digits denoting less than 60.
   */
  function ParseTime(t: string): Option<nat> {
    match ColonIndex(t)
    case None => None
    case Some(i) => ReadFields(t[..i], t[i + 1..])
  }

  /** The two fields of `MM:SS`, already split at the colon. */
  function ReadFields(mins: string, secs: string): Option<nat> {
    if |mins| >= 2 && AllDigits(mins) && |secs| == 2 && AllDigits(secs) && ValueOf(secs) < 60
    then Some(ValueOf(mins) * 60 + ValueOf(secs))
    else None
  }

  // ---------------------------------------------------------------------------
  // Lemmas

  lemma {:induction false} ShowNatValue(n: nat)
    ensures ValueOf(ShowNat(n)) == n
    decreases n
  {
    if n >= 10 {
      var s := ShowNat(n);
      assert s[..|s| - 1] == ShowNat(n / 10);
      ShowNatValue(n / 10);
    }
  }

  /** Leading zeros do not change the value. */
  lemma {:induction false} LeadingZero(s: string)
    requires AllDigits(s)
    ensures AllDigits("0" + s) && ValueOf("0" + s) == ValueOf(s)
    decreases |s|
  {
    if |s| > 0 {
      var n := |s| - 1;
      assert ("0" + s)[..n + 1] == "0" + s[..n];
      LeadingZero(s[..n]);
    }
  }

  lemma PadStart2Value(s: string)
    requires AllDigits(s)
    ensures AllDigits(PadStart2(s)) && ValueOf(PadStart2(s)) == ValueOf(s)
  {
    if |s| == 1 {
      LeadingZero(s);
    } else if |s| == 0 {
      LeadingZero(s);
      LeadingZero("0" + s);
      assert "0" + ("0" + s) == "00";
    }
  }

  /** A field as rendered: the padded decimal form of `n`. */
  lemma FieldValue(n: nat)
    ensures |PadStart2(ShowNat(n))| >= 2
    ensures AllDigits(PadStart2(ShowNat(n))) && ValueOf(PadStart2(ShowNat(n))) == n
  {
    PadStart2Value(ShowNat(n));
    ShowNatValue(n);
  }

  lemma SplitAtColon(p: string, q: string)
    ensures var r := p + ":" + q;
      |r| == |p| + 1 + |q| && r[..|p|] == p && r[|p|] == ':' && r[|p| + 1..] == q
  {
  }

  /**
   * The rendered time is a minutes field, ':' and a seconds field: both
   * fields are at least two digits, the seconds field exactly two, the
   * seconds are below 60, and minutes times 60 plus seconds gives back the
   * input.
   */
  lemma FormatTimeFields(seconds: nat) returns (mins: string, secs: string)
    ensures FormatTime(seconds) == mins + ":" + secs
    ensures |mins| >= 2 && AllDigits(mins) && |secs| == 2 && AllDigits(secs)
    ensures ValueOf(secs) < 60
    ensures ValueOf(mins) * 60 + ValueOf(secs) == seconds
  {
    var m, sec := seconds / 60, seconds % 60;
    mins, secs := PadStart2(ShowNat(m)), PadStart2(ShowNat(sec));
    FieldValue(m);
    FieldValue(sec);
    assert |ShowNat(sec)| == 1 || |ShowNat(sec)| == 2 by {
      if sec >= 10 { assert ShowNat(sec) == ShowNat(sec / 10) + [DigitChar(sec % 10)]; }
    }
  }

  /**
   * The width of the rendered time: the minutes field is as wide as the
   * decimal minutes or two, whichever is more, and carries no leading zero
   * beyond that padding.
   */
  lemma FormatTimeWidth(seconds: nat)
    ensures var r := FormatTime(seconds);
      |r| == (if |ShowNat(seconds / 60)| >= 2 then |ShowNat(seconds / 60)| else 2) + 3
      && (|r| > 5 ==> r[0] != '0')
  {
    var m := ShowNat(seconds / 60);
    var r := FormatTime(seconds);
    assert r == PadStart2(m) + ":" + PadStart2(ShowNat(seconds % 60));
    if |r| > 5 {
      assert |m| > 2 && r[0] == m[0];
    }
  }

  lemma {:induction false} ColonAfterDigits(p: string, q: string)
    requires AllDigits(p)
    ensures ColonIndex(p + ":" + q) == Some(|p|)
    decreases |p|
  {
    if |p| > 0 {
      assert (p + ":" + q)[1..] == p[1..] + ":" + q;
      ColonAfterDigits(p[1..], q);
    }
  }

  /** A well-formed `MM:SS` string reads as minutes times 60 plus seconds. */
  lemma ParseFields(p: string, q: string, n: nat)
    requires |p| >= 2 && AllDigits(p) && |q| == 2 && AllDigits(q) && ValueOf(q) < 60
    requires ValueOf(p) * 60 + ValueOf(q) == n
    ensures ParseTime(p + ":" + q) == Some(n)
  {
    ColonAfterDigits(p, q);
    ParseAtColon(p, q);
    ReadFieldsValue(p, q);
  }

  lemma ReadFieldsValue(p: string, q: string)
    requires |p| >= 2 && AllDigits(p) && |q| == 2 && AllDigits(q) && ValueOf(q) < 60
    ensures ReadFields(p, q) == Some(ValueOf(p) * 60 + ValueOf(q))
  {
  }

  lemma ParseAtColon(p: string, q: string)
    requires ColonIndex(p + ":" + q) == Some(|p|)
    ensures ParseTime(p + ":" + q) == ReadFields(p, q)
  {
    SplitAtColon(p, q);
  }

  /** Reading a rendered time gives back the seconds it was rendered from. */
  lemma ParseFormatRoundTrip(seconds: nat)
    ensures ParseTime(FormatTime(seconds)) == Some(seconds)
  {
    var mins, secs := FormatTimeFields(seconds);
    ParseFields(mins, secs, seconds);
  }

  /** Different times never render alike. */
  lemma FormatTimeInjective(a: nat, b: nat)
    requires FormatTime(a) == FormatTime(b)
    ensures a == b
  {
    ParseFormatRoundTrip(a);
    ParseFormatRoundTrip(b);
  }

  /** Sixty-five seconds render as one minute and five seconds. */
  lemma FormatTimeExample()
    ensures FormatTime(65) == "01:05"
  {
    assert 65 / 60 == 1 && 65 % 60 == 5;
    assert ShowNat(1) == "1" && ShowNat(5) == "5";
    assert PadStart2("1") == "01" && PadStart2("5") == "05";
  }

  /** The minutes field grows past two digits instead of wrapping. */
  lemma FormatTimeLongExample()
    ensures FormatTime(6000) == "100:00"
  {
    assert 6000 / 60 == 100 && 6000 % 60 == 0;
    assert ShowNat(1) == "1" && ShowNat(0) == "0";
    assert ShowNat(10) == "10";
    assert ShowNat(100) == "100";
    assert PadStart2("100") == "100" && PadStart2("0") == "00";
  }
}
